=== FILE: README.md ===
# Sistema de Patrimônio: a Dafny model of its core logic

The system keeps an inventory of laboratory assets ("patrimônios"). Each
asset has a tag (`numero_patrimonio`), a name, a room (`sala`), a
quantity and a value. A FastAPI backend offers create/list/delete routes
and spreadsheet and PDF exports. It also has a chat route that asks a
generative model to turn a free-text message into a record. A React page
lists the records with a search box.

This project models the three pieces of deterministic logic in that code:

- **Per-room tables** (`backend/models.py`), in `slug.dfy` and `sala_models.dfy`.
  A room name is turned into an ASCII slug. The slug names the room's
  table (`patrimonios_<slug>`) and its class (`Patrimonio<Words>DB`).
  The registry maps each room name to its table, and a lookup of an
  unknown room fails with `Sala desconhecida: <room>`.
- **The single-table store and the chat intake** (`backend/main.py`), in
  `inventory.dfy`, `reports.dfy` and `chat.dfy`.
  - The store supports create, list and delete-by-id. Delete fails with
    404 "Item não encontrado" when the id is absent.
  - The reports are the spreadsheet rows and the PDF table.
  - `chat_with_ai` is split into its decision steps: keyword intent,
    code-fence removal, the `AUTO-XXXXXX` fallback tag, validation, and
    the choice between a `success`, `chat` and `error` response.
- **The list view** (`frontend/src/App.jsx`), in `inventory_view.dfy`: the
  order-preserving search filter, and the append done when the chat
  reports a saved record.

`text.dfy` holds the string primitives both languages provide: case
mapping, substring search, `strip`, `replace`, slicing and `str(int)`.
`wrappers.dfy` holds `Option` and `Result`.

Inputs that the code takes from outside are parameters of the model:

- the room registry (`SALAS`);
- the generative model's reply (`LlmReply`);
- the uuid text;
- `json.loads` (`parse`);
- the text of a raised exception (`describe`);
- Python's float-to-text conversion in the PDF (`showValor`).

The store is a sequence of rows in retrieval order.

The model follows the older single-table `backend/main.py`:

- That version has no update route, no room normalizer and no per-room store.
- Its PDF is one flat table, with no grouping by room and no totals.
- It generates a tag only on the chat path. The REST create requires one.
- The generated tag is `AUTO-` plus the first six characters of a uuid,
  upper-cased. These six characters are upper-case hex digits (`[0-9A-F]`).

SQLite stores integers in 64 bits. The model writes this limit out. A
quantity outside the range cannot be inserted, and an id outside it
cannot be looked up. Python's driver raises `OverflowError` in both
cases.

## Model

| member | source | states |
|---|---|---|
| Slug.AsciiFold | backend/models.py:15-16 | the folded text is pure ASCII, and ASCII text passes through unchanged |
| Slug.JoinSplit | backend/models.py:18 | `sep.join(s.split(sep)) == s`: joining the split parts restores the text |
| Slug.SplitJoin | backend/models.py:24 | splitting parts joined by a separator they avoid gives the parts back |
| Slug.CollapseIsWords | backend/models.py:17-18 | the non-empty `_`-separated parts of the cleaned text are exactly its maximal alphanumeric runs, in order |
| Slug.SlugIsJoinedWords | backend/models.py:13-19 | the slug is the maximal alphanumeric runs of the folded name, lower-cased, in order, joined by single `_` |
| Slug.SlugSegmentsAscii | backend/models.py:17-19 | for ASCII input, each maximal run of non-alphanumerics becomes one `_` between the lower-cased alphanumeric segments |
| Slug.SlugShape | backend/models.py:16-19 | a slug has only `[a-z0-9_]`, never starts or ends with `_`, and never has `__` |
| Slug.SlugIdempotent | backend/models.py:13-19 | `slugify(slugify(s)) == slugify(s)` |
| Slug.SlugFixedPoints | backend/models.py:13-19 | a string is its own slug if and only if it is a well-formed slug |
| SalaModels.BuildModelClass | backend/models.py:22-25 | the table name is `patrimonios_` followed by the room's well-formed slug; the class name is `Patrimonio` + the room's runs capitalised and concatenated + `DB`; the `sala` default is the room name |
| SalaModels.ClassNameFromWords | backend/models.py:24 | capitalising the `_`-separated parts of the slug is capitalising the room's alphanumeric runs, also for an empty slug |
| SalaModels.ClassNameIsIdentifier | backend/models.py:24 | every class name consists of ASCII letters and digits only |
| SalaModels.BuildSalaModels | backend/models.py:22-42 | loading fails exactly when two positions of the room list give the same table name, naming the first table declared twice; otherwise the registry has a key exactly for each listed room, unmodified, mapped to that room's table |
| SalaModels.FirstClash | backend/models.py:42 | finds the first position whose table name an earlier position already declared, or reports that none does |
| SalaModels.AccentTwinsDoNotLoad | backend/models.py:13-42 | a list holding both "Química" and "Quimica" does not load: both rooms would declare `patrimonios_quimica` |
| SalaModels.SalaModelsOnePerRoom | backend/models.py:42 | a registry that loads has exactly one entry per listed room, and no two entries share a table |
| SalaModels.GetModelForSala | backend/models.py:45-49 | the lookup succeeds exactly for registered rooms, returning their entry, and otherwise fails with `Sala desconhecida: <room>` |
| SalaModels.LookupRegistered | backend/models.py:42-49 | in a registry that loaded from the room list, the lookup succeeds exactly for listed rooms and returns that room's own table |
| Inventory.NextId | backend/main.py:34 | a new primary key is positive and not used by any row |
| Inventory.Create | backend/main.py:84-90 | a create fails, changing nothing, exactly when the quantity does not fit 64 bits, some id has reached 2^63-1, or the `numero_patrimonio` is taken (unique column, line 35), with that error in that order; otherwise it appends one row with the request's fields and a fresh id, keeps the earlier rows, and keeps the store valid |
| Inventory.List | backend/main.py:93-95 | the listing is every stored row, in retrieval order, and in a valid store no two listed rows share an id or a tag |
| Inventory.FindId | backend/main.py:101 | finds the first row with the id, or reports that there is none |
| Inventory.Delete | backend/main.py:98-109 | a delete fails exactly when the id does not fit 64 bits (an overflow error) or no row has it (404 "Item não encontrado"); otherwise it removes one row with that id, keeps the others in order, and reports "Item deletado com sucesso" |
| Inventory.ListAfterDelete | backend/main.py:98-109 | in a valid store, the deleted id is gone, every other row stays, and the store stays valid |
| Inventory.DeleteTwiceNotFound | backend/main.py:101-104 | a second delete of the same id fails with 404 |
| Inventory.CreateThenDelete | backend/main.py:84-109 | deleting a just-created row by its id restores the store |
| Reports.ExcelRows | backend/main.py:118-126 | one spreadsheet row per record, in store order, each with the record's five exported fields |
| Reports.ExcelSheet | backend/main.py:118-134 | the sheet's header row is "Patrimônio", "Nome/Descrição", "Sala", "Quantidade", "Valor (R$)" in that order, and each record gives one row whose cell under each header is the record's field stored under that key; an empty store gives a sheet with no header and no rows |
| Reports.PdfRowShowsRecord | backend/main.py:166-172 | a PDF row shows its record's tag, exactly the first 30 characters of its name (all of a shorter name), the room, the quantity exactly as `str` writes it (text that reads back as the quantity), and `R$ ` followed by the value's text |
| Reports.PdfTable | backend/main.py:162-172 | the PDF table is the header row followed by one row per record, in order, each showing its record |
| Reports.ExportsAfterCreate | backend/main.py:147-172 | a created record adds exactly one PDF row, at the end |
| Text.FindSubstring | backend/main.py:213 | the scan answers true exactly when the keyword occurs in the text |
| Text.Strip | backend/main.py:238 | `strip()` keeps one block of the text, removes only whitespace, and leaves no whitespace at either end |
| Text.IntToStringRoundTrip | backend/main.py:170 | `int(str(n)) == n` for the quantity cell |
| ChatIntake.ClassifyIntent | backend/main.py:210-216 | the creation branch is chosen exactly when the lower-cased message contains one of the nine keywords |
| ChatIntake.RegisterIntentSurvivesContext | backend/main.py:213-216 | adding text around a registration request keeps it a registration request |
| ChatIntake.RegisterIntentIgnoresCase | backend/main.py:210 | a message and its lower-cased form are classified alike |
| ChatIntake.RemovingFencesLeavesNone | backend/main.py:238 | removing every "```" from left to right leaves no "```" |
| ChatIntake.StripFences | backend/main.py:238 | the cleaned reply holds no "```" and has no whitespace at either end |
| ChatIntake.StripFencesUnwrapsJsonBlock | backend/main.py:238 | a reply wrapped in a "```json … ```" block comes out as its stripped body |
| ChatIntake.StripFencesKeepsCleanText | backend/main.py:238 | text with no backtick and no surrounding whitespace is unchanged |
| ChatIntake.AutoTagShape | backend/main.py:246 | for a uuid text, the generated tag has 11 characters, starts with `AUTO-`, and continues with six upper-case hex digits that lower-case back to the uuid's first six characters |
| ChatIntake.FillTag | backend/main.py:245-246 | a missing or falsy tag becomes the generated tag; a truthy tag and every other field are unchanged |
| ChatIntake.Validate | backend/main.py:250 | `PatrimonioCreate(**dados_json)` (declared at lines 46-51): the request body is built exactly when every required field is present with its type, and carries those fields |
| ChatIntake.ValidateFieldsOf | backend/main.py:46-51 | every request body, written as JSON fields with any extra keys, validates back to itself |
| ChatIntake.Reject | backend/main.py:276-280 | a caught failure saves nothing and answers `error` with the "Erro interno ao salvar: " prefix |
| ChatIntake.Save | backend/main.py:252-270 | saving from the chat succeeds exactly when the insert can go through (new tag, 64-bit quantity, no id at 2^63-1); it then appends, and echoes in `success`, the record holding exactly the validated request's fields under its new id |
| ChatIntake.Register | backend/main.py:231-280 | the creation branch always answers: `chat` with the rephrase text exactly on a decode failure, `success` exactly when the record extracted from the reply can be inserted, and the record saved and echoed is that extracted record under its new id, otherwise `error` with nothing saved |
| ChatIntake.ChatWithAI | backend/main.py:205-296 | a plain message gets the stripped reply as `chat`, and a failed call there is a server error; a registration request is always answered and only it can change the store |
| ChatIntake.SavedTag | backend/main.py:245-254 | the saved tag is the generated one exactly when the decoded tag was missing or falsy, and otherwise the decoded tag |
| InventoryView.Filtered | frontend/src/App.jsx:83-87 | the filtered list is an order-preserving subsequence of the items, and an item is in it if and only if its name or room (case-insensitively) or its tag (case-sensitively) contains the query |
| InventoryView.FilteredCounts | frontend/src/App.jsx:83-87 | a matching item appears as often as in the full list, and a non-matching item never appears |
| InventoryView.EmptyQueryKeepsAll | frontend/src/App.jsx:83-87 | an empty query keeps every item, so the count equals the list length |
| InventoryView.DisplayedCount | frontend/src/App.jsx:168 | the displayed count is at most the number of items |
| InventoryView.DisplayedCountIsMatches | frontend/src/App.jsx:83-87 | the displayed count equals the number of items that match the query, counted one by one |
| InventoryView.AppendItem | frontend/src/App.jsx:91-93 | the saved item is added at the end and the earlier items are unchanged |
| InventoryView.FilterAfterAppend | frontend/src/App.jsx:83-93 | after the append, the filtered list is the old one, plus the new item at the end if it matches |
| InventoryView.ChatSuccessKeepsViewInStep | frontend/src/components/ChatWidget.jsx:34-40 | if the view showed the store's listing, then appending the record echoed by a reply whose `type` is "success" gives the new listing, and any other answer leaves the store equal to the unchanged view |

## Left out

- Slug.AsciiFold: NFKD decomposition is modelled by a fixed table up to U+00FF. The table covers Latin-1 letters with diacritics, the ordinal indicators, superscript digits, vulgar fractions and spacing accents. Characters above U+00FF are dropped, although real NFKD keeps the ASCII base letter of many of them.
- Text.LowerChar: lower-casing is exact for ASCII and Latin-1, and leaves every character above U+00FF unchanged. Python's `str.lower` and JavaScript's `toLowerCase` map further scripts, sometimes to several characters. This matters for the intent check and the search filter only for text beyond Latin-1.
- Text.UpperChar: upper-casing covers ASCII and the Latin-1 lower-case letters whose upper case is also in Latin-1. It leaves `ÿ` (Python gives `Ÿ`), `µ` (Python gives `Μ`) and `ß` (Python gives `SS`) unchanged, like every character above U+00FF. The program upper-cases only the text of a uuid (hex digits and hyphens) and the first letters of ASCII slug words, where the two agree.
- ChatIntake.Validate: the model accepts exact JSON types only. Pydantic's lax coercions are left out: numeric strings and booleans for `quantidade` and `valor`, and integral floats for `quantidade`.
- Inventory.NextId: ids follow SQLite's rule for an `INTEGER PRIMARY KEY`, which is one more than the largest id. The property proved is freshness. The ORM session, engine and commit are not modelled.
- Inventory.Create: once some id is 2^63-1, SQLite inserts the row under a random unused id, so the row need not come last in retrieval order. It fails with SQLITE_FULL only if many random tries find no unused id. The model fails at once with `MaxIdReached`.
- Inventory.Create: the REST route catches none of its failures. A duplicate tag raises an `IntegrityError` and an out-of-range quantity an `OverflowError`, and both become a server error. The model returns `UniqueViolation` and `IntegerOverflow`. `Inventory.Delete` likewise returns `IntegerOverflow` for the server error an out-of-range id causes.
- `valor` is a Python float. It is carried as a `real` and never rounded. Its PDF text is the `showValor` parameter.
- The generative-model calls, prompts and `testes_modelos.py` are network calls. The reply is the `LlmReply` parameter.
- `json.loads` is the `parse` parameter. The text of a Python exception (`str(e)`) is the `describe` parameter. Only the "Erro interno ao salvar: " prefix is fixed.
- Debug printing, the `traceback` dump, CORS, FastAPI routing and `StreamingResponse` are I/O or framework plumbing.
- Spreadsheet encoding (pandas/openpyxl) and PDF layout and styling (reportlab) happen in libraries. Only the rows handed to them are modelled.
- Dynamic class creation with `type(...)` and the SQLAlchemy column declarations are not modelled. These columns are the same for every room. Only the table name, the class name and the `sala` default are modelled.
- `backend/database.py` is engine and session set-up only.
- The room list `SALAS` lives in `salas.py`, which is not part of this model. It is a parameter.
- React rendering, fetch calls, the edit form and `ChatWidget.jsx`'s message state are UI code around network calls.

=== FILE: chat.dfy ===
/** The decision steps of `chat_with_ai` in `backend/main.py`: intent
    classification, clean-up of the model's reply, the fallback tag, and
    the choice of response. The generative-model call, `json.loads` and the
    text of Python exceptions are parameters. */
module ChatIntake {
  import opened Wrappers
  import opened Text
  import opened Inventory

  // ---------------------------------------------------------------------
  // Intent classification.

  /** The fixed keywords whose presence marks a registration request. */
  const Keywords: seq<string> :=
    ["preencher", "adicionar", "cadastrar", "registrar", "registre", "cria", "insira", "novo", "lançar"]

  /** The lower-cased message contains one of the keywords. */
  predicate IsRegisterIntent(message: string) {
    exists k :: 0 <= k < |Keywords| && Contains(Lower(message), Keywords[k])
  }

  /** The `any(keyword in message_lower ...)` scan, stopping at the first keyword found. */
  method ClassifyIntent(message: string) returns (register: bool)
    ensures register <==> IsRegisterIntent(message)
  {
    var lowered := Lower(message);
    var k := 0;
    while k < |Keywords|
      invariant 0 <= k <= |Keywords|
      invariant forall j :: 0 <= j < k ==> !Contains(lowered, Keywords[j])
    {
      var found := FindSubstring(lowered, Keywords[k]);
      if found {
        return true;
      }
      k := k + 1;
    }
    return false;
  }

  /** Adding text around a registration request keeps it one: the
      classification only looks for a keyword, wherever it is. */
  lemma RegisterIntentSurvivesContext(message: string, before: string, after: string)
    requires IsRegisterIntent(message)
    ensures IsRegisterIntent(before + message + after)
  {
    var k :| 0 <= k < |Keywords| && Contains(Lower(message), Keywords[k]);
    ContainsExtend(Lower(message), Keywords[k], Lower(before), Lower(after));
    LowerConcat(before, message);
    LowerConcat(before + message, after);
  }

  /** The classification ignores case: a message and its lower-cased form agree. */
  lemma RegisterIntentIgnoresCase(message: string)
    ensures IsRegisterIntent(Lower(message)) <==> IsRegisterIntent(message)
  {
    LowerIdempotent(message);
  }

  // ---------------------------------------------------------------------
  // Code-fence removal.

  const Fence: string := "```"
  const JsonFence: string := "```json"

  /** `text.replace("```json", "").replace("```", "").strip()`: what is left
      holds no code fence and has no whitespace at either end. */
  function StripFences(text: string): (r: string)
    ensures !Contains(r, Fence)
    ensures |r| > 0 ==> !IsSpace(r[0]) && !IsSpace(r[|r| - 1])
  {
    var once := Replace(text, JsonFence, "");
    var unfenced := Replace(once, Fence, "");
    RemovingFencesLeavesNone(once);
    StripAddsNoFence(unfenced);
    Strip(unfenced)
  }

  /** Stripping keeps a block of the text, so it cannot create a fence. */
  lemma StripAddsNoFence(u: string)
    requires !Contains(u, Fence)
    ensures !Contains(Strip(u), Fence)
  {
    var r := Strip(u);
    var i :| StripsAt(u, r, i);
    NotContainedInSlice(u, Fence, i, i + |r|);
  }

  lemma NotContainedInSlice(s: string, k: string, i: int, j: int)
    requires 0 <= i <= j <= |s|
    requires !Contains(s, k)
    ensures !Contains(s[i..j], k)
  {
    forall p | 0 <= p <= |s[i..j]| - |k|
      ensures !OccursAt(s[i..j], k, p)
    {
      var a := s[i..j][p..p + |k|];
      var b := s[i + p..i + p + |k|];
      assert |a| == |b|;
      assert forall q :: 0 <= q < |a| ==> a[q] == s[i + p + q] == b[q];
      assert a == b;
      assert !OccursAt(s, k, i + p);
    }
  }

  lemma ReplaceKeepsFirst(t: string)
    requires |t| > 0 && t[0] != '`'
    ensures |Replace(t, Fence, "")| > 0 && Replace(t, Fence, "")[0] == t[0]
  {
    if |t| >= 3 {
      assert t[..3] != Fence;
    }
  }

  lemma ReplaceKeepsSecond(t: string)
    requires |t| >= 2 && t[0] == '`' && t[1] != '`'
    ensures |Replace(t, Fence, "")| >= 2 && Replace(t, Fence, "")[1] == t[1]
  {
    if |t| >= 3 {
      assert t[..3] != Fence;
      ReplaceKeepsFirst(t[1..]);
    }
  }

  /** Python's left-to-right replacement of every "```" by nothing cannot
      create a new "```" out of the pieces it joins. */
  lemma {:induction false} RemovingFencesLeavesNone(s: string)
    ensures !Contains(Replace(s, Fence, ""), Fence)
    decreases |s|
  {
    var r := Replace(s, Fence, "");
    if |s| < 3 {
      assert r == s;
    } else if s[..3] == Fence {
      RemovingFencesLeavesNone(s[3..]);
      assert r == Replace(s[3..], Fence, "");
    } else {
      var t := s[1..];
      var rt := Replace(t, Fence, "");
      RemovingFencesLeavesNone(t);
      assert r == [s[0]] + rt;
      if s[0] == '`' {
        if s[1] != '`' {
          ReplaceKeepsFirst(t);
        } else {
          ReplaceKeepsSecond(t);
        }
      }
      forall p | 0 <= p <= |r| - 3
        ensures !OccursAt(r, Fence, p)
      {
        if p > 0 {
          assert r[p..p + 3] == rt[p - 1..p + 2];
          assert !OccursAt(rt, Fence, p - 1);
        } else {
          assert r[..3] == [s[0], rt[0], rt[1]];
        }
      }
    }
  }

  lemma {:induction false} ReplaceSkipsPlain(x: string, y: string, pat: string)
    requires |pat| > 0
    requires forall i :: 0 <= i < |x| ==> x[i] != pat[0]
    ensures Replace(x + y, pat, "") == x + Replace(y, pat, "")
    decreases |x|
  {
    if |x| > 0 {
      var s := x + y;
      assert s[0] == x[0];
      if |s| >= |pat| {
        assert s[..|pat|][0] != pat[0];
      }
      assert s[1..] == x[1..] + y;
      ReplaceSkipsPlain(x[1..], y, pat);
      assert Replace(s, pat, "") == [x[0]] + Replace(x[1..] + y, pat, "");
    } else {
      assert x + y == y;
    }
  }

  predicate NoBacktick(s: string) {
    forall i :: 0 <= i < |s| ==> s[i] != '`'
  }

  /** A reply wrapped in a JSON code block comes out as its stripped body. */
  lemma StripFencesUnwrapsJsonBlock(body: string)
    requires NoBacktick(body)
    ensures StripFences(JsonFence + body + Fence) == Strip(body)
  {
    var text := JsonFence + body + Fence;
    assert text[..|JsonFence|] == JsonFence;
    assert text[|JsonFence|..] == body + Fence;
    ReplaceSkipsPlain(body, Fence, JsonFence);
    assert Replace(Fence, JsonFence, "") == Fence;
    var once := Replace(text, JsonFence, "");
    assert once == "" + Replace(body + Fence, JsonFence, "");
    assert once == body + Fence;
    ReplaceSkipsPlain(body, Fence, Fence);
    assert Fence[..3] == Fence;
    assert Replace(Fence, Fence, "") == "" + Replace("", Fence, "");
    assert Replace(once, Fence, "") == body + "";
    assert body + "" == body;
  }

  /** A reply that already is clean text passes through unchanged. */
  lemma StripFencesKeepsCleanText(text: string)
    requires NoBacktick(text)
    requires |text| > 0 ==> !IsSpace(text[0]) && !IsSpace(text[|text| - 1])
    ensures StripFences(text) == text
  {
    ReplaceSkipsPlain(text, "", JsonFence);
    ReplaceSkipsPlain(text, "", Fence);
    assert text + "" == text;
  }

  // ---------------------------------------------------------------------
  // The fallback tag.

  const AutoPrefix: string := "AUTO-"

  /** `f"AUTO-{str(uuid.uuid4())[:6].upper()}"`, with the uuid text as a parameter. */
  function AutoTag(uuid: string): string {
    AutoPrefix + Upper(Take(uuid, 6))
  }

  predicate IsLowerHex(c: char) {
    ('0' <= c <= '9') || ('a' <= c <= 'f')
  }

  predicate IsUpperHex(c: char) {
    ('0' <= c <= '9') || ('A' <= c <= 'F')
  }

  /** The text of `str(uuid.uuid4())`: 36 characters, lower-case hex digits
      in groups of 8-4-4-4-12 separated by hyphens. */
  predicate IsUuidText(u: string) {
    && |u| == 36
    && forall i :: 0 <= i < 36 ==>
         (if i == 8 || i == 13 || i == 18 || i == 23 then u[i] == '-' else IsLowerHex(u[i]))
  }

  /** A generated tag is `AUTO-` followed by six upper-case hex digits, 11
      characters in all, and lower-casing those digits gives back the
      first six characters of the uuid. */
  lemma AutoTagShape(uuid: string)
    requires IsUuidText(uuid)
    ensures |AutoTag(uuid)| == 11
    ensures AutoTag(uuid)[..5] == AutoPrefix
    ensures forall i :: 5 <= i < 11 ==> IsUpperHex(AutoTag(uuid)[i])
    ensures Lower(AutoTag(uuid)[5..]) == uuid[..6]
  {
    var t := AutoTag(uuid);
    assert t[5..] == Upper(uuid[..6]);
    forall i | 0 <= i < 6
      ensures IsUpperHex(t[5 + i]) && LowerChar(t[5 + i]) == uuid[i]
    {
      assert IsLowerHex(uuid[i]);
    }
  }

  // ---------------------------------------------------------------------
  // The extracted record.

  /** A value as `json.loads` returns it. */
  datatype Json =
    | JNull
    | JBool(b: bool)
    | JInt(i: int)
    | JFloat(f: real)
    | JStr(s: string)
    | JArray(elems: seq<Json>)
    | JObject(fields: map<string, Json>)

  /** Python truthiness of a decoded value. */
  predicate Truthy(j: Json) {
    match j
    case JNull => false
    case JBool(b) => b
    case JInt(i) => i != 0
    case JFloat(f) => f != 0.0
    case JStr(s) => |s| > 0
    case JArray(e) => |e| > 0
    case JObject(m) => |m| > 0
  }

  const TagKey: string := "numero_patrimonio"

  /** `dict.get`: the value under `key`, or `None`. */
  function Get(fields: map<string, Json>, key: string): Json {
    if key in fields then fields[key] else JNull
  }

  /** The tag step: a missing or falsy `numero_patrimonio` is replaced by
      the generated tag; a present, truthy one and every other field are
      left as they are. */
  function FillTag(fields: map<string, Json>, uuid: string): (r: map<string, Json>)
    ensures r.Keys == fields.Keys + {TagKey}
    ensures forall k :: k in fields && k != TagKey ==> r[k] == fields[k]
    ensures Truthy(Get(fields, TagKey)) ==> r[TagKey] == fields[TagKey]
    ensures !Truthy(Get(fields, TagKey)) ==> r[TagKey] == JStr(AutoTag(uuid))
  {
    if !Truthy(Get(fields, TagKey)) then fields[TagKey := JStr(AutoTag(uuid))] else fields
  }

  function AsString(j: Json): Option<string> {
    if j.JStr? then Some(j.s) else None
  }

  function AsInt(j: Json): Option<int> {
    if j.JInt? then Some(j.i) else None
  }

  /** A float field accepts a decoded int or float. */
  function AsReal(j: Json): Option<real> {
    match j
    case JInt(i) => Some(i as real)
    case JFloat(f) => Some(f)
    case _ => None
  }

  /** Every field `PatrimonioCreate` requires is present with its type. */
  predicate Fits(fields: map<string, Json>) {
    && AsString(Get(fields, TagKey)).Some?
    && AsString(Get(fields, "nome")).Some?
    && AsString(Get(fields, "sala")).Some?
    && AsInt(Get(fields, "quantidade")).Some?
    && AsReal(Get(fields, "valor")).Some?
  }

  /** Why the registration branch failed, for the cases it reports as `error`. */
  datatype Fault =
    | ServiceFailed
    | NoReplyText
    | NotAnObject
    | InvalidRecord
    | SaveFailed(cause: StoreError)

  /** `PatrimonioCreate(**dados_json)`: the request body, or a validation failure. */
  function Validate(fields: map<string, Json>): (r: Result<NewItem, Fault>)
    ensures r.Success? <==> Fits(fields)
    ensures r.Failure? ==> r.error == InvalidRecord
    ensures r.Success? ==>
      && JStr(r.value.numeroPatrimonio) == Get(fields, TagKey)
      && JStr(r.value.nome) == Get(fields, "nome")
      && JStr(r.value.sala) == Get(fields, "sala")
      && JInt(r.value.quantidade) == Get(fields, "quantidade")
      && AsReal(Get(fields, "valor")) == Some(r.value.valor)
  {
    if !Fits(fields) then Failure(InvalidRecord)
    else
      Success(NewItem(
        AsString(Get(fields, TagKey)).value,
        AsString(Get(fields, "nome")).value,
        AsString(Get(fields, "sala")).value,
        AsInt(Get(fields, "quantidade")).value,
        AsReal(Get(fields, "valor")).value))
  }

  /** A request body as the decoded JSON object a model reply would carry,
      with `valor` as a JSON float. */
  function FieldsOf(item: NewItem): map<string, Json> {
    map[TagKey := JStr(item.numeroPatrimonio), "nome" := JStr(item.nome), "sala" := JStr(item.sala),
        "quantidade" := JInt(item.quantidade), "valor" := JFloat(item.valor)]
  }

  /** Validation reads back every request body from its JSON fields, and
      extra keys in the object are ignored. */
  lemma ValidateFieldsOf(item: NewItem, extra: map<string, Json>)
    ensures Validate(extra + FieldsOf(item)) == Success(item)
  {
    var f := extra + FieldsOf(item);
    assert Get(f, TagKey) == JStr(item.numeroPatrimonio);
    assert Get(f, "nome") == JStr(item.nome);
    assert Get(f, "sala") == JStr(item.sala);
    assert Get(f, "quantidade") == JInt(item.quantidade);
    assert Get(f, "valor") == JFloat(item.valor);
  }

  // ---------------------------------------------------------------------
  // The response.

  /** What the generative-model call produced: text, a response without
      text (`response.text` is `None`), or a raised exception. */
  datatype LlmReply = Replied(text: string) | NoText | CallFailed

  datatype Kind = KindSuccess | KindChat | KindError {
    /** The value of the response's `type` field: a different text for
        each kind, so a client comparing it with "success" recognises
        exactly the saved case. */
    function Name(): (r: string)
      ensures r == "success" <==> this == KindSuccess
      ensures r == "chat" <==> this == KindChat
      ensures r == "error" <==> this == KindError
    {
      match this
      case KindSuccess => "success"
      case KindChat => "chat"
      case KindError => "error"
    }
  }

  /** The JSON body `{type, message, data?}`. */
  datatype ChatResponse = ChatResponse(kind: Kind, message: string, data: Option<Record>)

  /** A handled request (possibly after saving a record), or an exception
      that escapes the handler and becomes a server error. */
  datatype ChatOutcome = Answered(store: Store, response: ChatResponse) | ServerError

  const RephraseMessage: string :=
    "Entendi que você quer cadastrar, mas não consegui entender os dados. Tente reformular."
  const ErrorPrefix: string := "Erro interno ao salvar: "

  function SavedMessage(r: Record): string {
    "Certo! Item '" + r.nome + "' (" + r.numeroPatrimonio + ") registrado."
  }

  /** The catch-all: nothing saved, an `error` response carrying `str(e)`. */
  function Reject(s: Store, f: Fault, describe: Fault -> string): (o: ChatOutcome)
    ensures o.Answered? && o.store == s && o.response.kind == KindError && o.response.data.None?
    ensures |o.response.message| >= |ErrorPrefix| && o.response.message[..|ErrorPrefix|] == ErrorPrefix
  {
    Answered(s, ChatResponse(KindError, ErrorPrefix + describe(f), None))
  }

  /** A handled registration: `success` exactly when a record is saved,
      which then is appended to the store and echoed; otherwise nothing
      changes and the response carries no record. */
  predicate WellAnswered(s: Store, o: ChatOutcome) {
    && o.Answered?
    && (o.response.kind == KindSuccess <==> o.response.data.Some?)
    && (o.response.kind == KindSuccess ==>
          && o.store.items == s.items + [o.response.data.value]
          && !HasId(s.items, o.response.data.value.id)
          && o.response.message == SavedMessage(o.response.data.value))
    && (o.response.kind != KindSuccess ==> o.store == s)
    && (o.response.kind == KindError ==>
          |o.response.message| >= |ErrorPrefix| && o.response.message[..|ErrorPrefix|] == ErrorPrefix)
    && (Valid(s) ==> Valid(o.store))
  }

  /** `criar_patrimonio` called from the chat: a failed insert (duplicate
      tag, a quantity outside 64 bits, an id at 2^63-1) is caught and reported
      as `error`. */
  function Save(s: Store, item: NewItem, describe: Fault -> string): (o: ChatOutcome)
    ensures WellAnswered(s, o)
    ensures o.response.kind == KindSuccess <==> CanInsert(s.items, item)
    ensures o.response.kind == KindSuccess ==>
      o.response.data.value == FromNewItem(o.response.data.value.id, item)
  {
    match Create(s, item)
    case Failure(e) => Reject(s, SaveFailed(e), describe)
    case Success(c) =>
      Answered(c.store, ChatResponse(KindSuccess, SavedMessage(c.record), Some(c.record)))
  }

  /** The record a registration would save from a decoded reply, before storage. */
  function Extracted(j: Json, uuid: string): Result<NewItem, Fault> {
    if !j.JObject? then Failure(NotAnObject) else Validate(FillTag(j.fields, uuid))
  }

  /** The registration branch after intent detection. */
  function Register(
    s: Store, reply: LlmReply, uuid: string,
    parse: string -> Option<Json>, describe: Fault -> string): (o: ChatOutcome)
    ensures WellAnswered(s, o)
    ensures o.response.kind == KindChat <==> reply.Replied? && parse(StripFences(reply.text)).None?
    ensures o.response.kind == KindChat ==> o.response.message == RephraseMessage
    ensures o.response.kind == KindSuccess <==>
      && reply.Replied?
      && parse(StripFences(reply.text)).Some?
      && Extracted(parse(StripFences(reply.text)).value, uuid).Success?
      && CanInsert(s.items, Extracted(parse(StripFences(reply.text)).value, uuid).value)
    ensures o.response.kind == KindSuccess ==>
      o.response.data.value ==
        FromNewItem(o.response.data.value.id, Extracted(parse(StripFences(reply.text)).value, uuid).value)
  {
    match reply
    case CallFailed => Reject(s, ServiceFailed, describe)
    case NoText => Reject(s, NoReplyText, describe)
    case Replied(text) =>
      match parse(StripFences(text))
      case None => Answered(s, ChatResponse(KindChat, RephraseMessage, None))
      case Some(j) =>
        match Extracted(j, uuid)
        case Failure(f) => Reject(s, f, describe)
        case Success(item) => Save(s, item, describe)
  }

  /** `chat_with_ai`. A plain message gets the model's text back, trimmed,
      as `chat`, and a failed model call there escapes as a server error.
      A registration request is always answered: `chat` asking to rephrase
      when the reply is not JSON, `success` with the saved record echoed
      when it is saved, and `error` (nothing saved) for any other failure. */
  function ChatWithAI(
    s: Store, message: string, reply: LlmReply, uuid: string,
    parse: string -> Option<Json>, describe: Fault -> string): (o: ChatOutcome)
    ensures o.ServerError? <==> !IsRegisterIntent(message) && !reply.Replied?
    ensures !IsRegisterIntent(message) && reply.Replied? ==>
      o == Answered(s, ChatResponse(KindChat, Strip(reply.text), None))
    ensures IsRegisterIntent(message) ==> WellAnswered(s, o)
    ensures o.Answered? && o.response.kind != KindChat ==> IsRegisterIntent(message)
  {
    if IsRegisterIntent(message) then Register(s, reply, uuid, parse, describe)
    else
      match reply
      case Replied(text) => Answered(s, ChatResponse(KindChat, Strip(text), None))
      case _ => ServerError
  }

  /** The saved record's tag is the generated one exactly when the decoded
      tag was missing or falsy; otherwise it is the decoded tag. */
  lemma SavedTag(
    s: Store, message: string, text: string, uuid: string,
    parse: string -> Option<Json>, describe: Fault -> string)
    requires IsRegisterIntent(message)
    requires ChatWithAI(s, message, Replied(text), uuid, parse, describe).Answered?
    requires ChatWithAI(s, message, Replied(text), uuid, parse, describe).response.kind == KindSuccess
    ensures parse(StripFences(text)).Some? && parse(StripFences(text)).value.JObject?
    ensures var fields := parse(StripFences(text)).value.fields;
      var saved := ChatWithAI(s, message, Replied(text), uuid, parse, describe).response.data.value;
      && (!Truthy(Get(fields, TagKey)) ==> saved.numeroPatrimonio == AutoTag(uuid))
      && (Truthy(Get(fields, TagKey)) ==> JStr(saved.numeroPatrimonio) == fields[TagKey])
  {
  }
}

=== FILE: inventory.dfy ===
/** The single-table inventory store of `backend/main.py`: create, list
    and delete-by-id on the `patrimonios` table, with the table held as
    the sequence of its rows in retrieval order. */
module Inventory {
  import opened Wrappers

  /** One row of `patrimonios`. `valor` is a Python float; it is carried
      as a real number and never computed with. */
  datatype Record = Record(
    id: int,
    numeroPatrimonio: string,
    nome: string,
    sala: string,
    quantidade: int,
    valor: real)

  /** The `PatrimonioCreate` request body: a record before storage gives it an id. */
  datatype NewItem = NewItem(
    numeroPatrimonio: string,
    nome: string,
    sala: string,
    quantidade: int,
    valor: real)

  datatype Store = Store(items: seq<Record>)

  /** Why a store operation fails: the unique index on `numero_patrimonio`
      rejects an insert, a bound integer is outside SQLite's 64-bit range
      (`OverflowError` from the driver), some row id has already reached
      2^63-1 (where the model stops instead of following SQLite's random
      choice), or the route raises an HTTP error. */
  datatype StoreError =
    | UniqueViolation(tag: string)
    | IntegerOverflow(value: int)
    | MaxIdReached
    | HttpError(status: int, detail: string)

  datatype Created = Created(store: Store, record: Record)

  datatype Deleted = Deleted(store: Store, mensagem: string)

  const NotFoundDetail: string := "Item não encontrado"
  const DeletedMessage: string := "Item deletado com sucesso"

  /** The range of a SQLite INTEGER: signed 64-bit. */
  const MinInt64: int := -0x8000_0000_0000_0000
  const MaxInt64: int := 0x7FFF_FFFF_FFFF_FFFF

  predicate FitsInt64(n: int) {
    MinInt64 <= n <= MaxInt64
  }

  predicate HasId(items: seq<Record>, id: int) {
    exists i :: 0 <= i < |items| && items[i].id == id
  }

  predicate HasTag(items: seq<Record>, tag: string) {
    exists i :: 0 <= i < |items| && items[i].numeroPatrimonio == tag
  }

  /** What the table's constraints guarantee of its rows: positive, distinct
      64-bit primary keys, 64-bit quantities and distinct
      `numero_patrimonio` values. */
  predicate Valid(s: Store) {
    && (forall i :: 0 <= i < |s.items| ==> 0 < s.items[i].id <= MaxInt64)
    && (forall i :: 0 <= i < |s.items| ==> FitsInt64(s.items[i].quantidade))
    && (forall i, j :: 0 <= i < j < |s.items| ==> s.items[i].id != s.items[j].id)
    && (forall i, j :: 0 <= i < j < |s.items| ==>
          s.items[i].numeroPatrimonio != s.items[j].numeroPatrimonio)
  }

  /** The largest id in use, or 0 for an empty table. */
  function MaxId(items: seq<Record>): (m: int)
    ensures m >= 0
    ensures forall i :: 0 <= i < |items| ==> items[i].id <= m
    ensures m > 0 ==> HasId(items, m)
  {
    if |items| == 0 then 0
    else
      var rest := MaxId(items[1..]);
      if items[0].id > rest then items[0].id else rest
  }

  /** The id SQLite gives a new row of an `INTEGER PRIMARY KEY` table:
      one more than the largest in use. It is positive and unused. */
  function NextId(items: seq<Record>): (id: int)
    ensures id > 0
    ensures !HasId(items, id)
  {
    MaxId(items) + 1
  }

  function FromNewItem(id: int, item: NewItem): Record {
    Record(id, item.numeroPatrimonio, item.nome, item.sala, item.quantidade, item.valor)
  }

  /** Some row holds id 2^63-1, the largest a SQLite rowid can be, so the
      max+1 rule no longer applies. SQLite then tries random unused ids;
      the model does not follow it there. */
  predicate ReachesMaxId(items: seq<Record>) {
    exists i :: 0 <= i < |items| && items[i].id >= MaxInt64
  }

  /** An insert of `item` goes through: its quantity fits a SQLite
      INTEGER, no id has reached 2^63-1 and its tag is new. */
  predicate CanInsert(items: seq<Record>, item: NewItem) {
    FitsInt64(item.quantidade) && !ReachesMaxId(items) && !HasTag(items, item.numeroPatrimonio)
  }

  /** `criar_patrimonio`: inserts one row built from the request under a
      fresh id, after the existing rows. Without changing anything it
      fails when the quantity does not fit 64 bits (the driver refuses to
      bind it), when some id has reached 2^63-1, or on a duplicate `numero_patrimonio`,
      checked in that order. */
  function Create(s: Store, item: NewItem): (r: Result<Created, StoreError>)
    ensures r.Success? <==> CanInsert(s.items, item)
    ensures !FitsInt64(item.quantidade) ==> r == Failure(IntegerOverflow(item.quantidade))
    ensures FitsInt64(item.quantidade) && ReachesMaxId(s.items) ==> r == Failure(MaxIdReached)
    ensures FitsInt64(item.quantidade) && !ReachesMaxId(s.items) && HasTag(s.items, item.numeroPatrimonio) ==>
      r == Failure(UniqueViolation(item.numeroPatrimonio))
    ensures r.Success? ==>
      && r.value.store.items == s.items + [r.value.record]
      && !HasId(s.items, r.value.record.id)
      && r.value.record.id > 0
      && r.value.record.numeroPatrimonio == item.numeroPatrimonio
      && r.value.record.nome == item.nome
      && r.value.record.sala == item.sala
      && r.value.record.quantidade == item.quantidade
      && r.value.record.valor == item.valor
    ensures r.Success? && Valid(s) ==> Valid(r.value.store)
  {
    if !FitsInt64(item.quantidade) then Failure(IntegerOverflow(item.quantidade))
    else if MaxId(s.items) >= MaxInt64 then Failure(MaxIdReached)
    else if HasTag(s.items, item.numeroPatrimonio) then
      Failure(UniqueViolation(item.numeroPatrimonio))
    else
      var rec := FromNewItem(NextId(s.items), item);
      Success(Created(Store(s.items + [rec]), rec))
  }

  /** `listar_patrimonios`: every row, in retrieval order. */
  function List(s: Store): (r: seq<Record>)
    ensures |r| == |s.items|
    ensures forall i :: 0 <= i < |r| ==> r[i] == s.items[i]
    ensures Valid(s) ==> forall i, j :: 0 <= i < j < |r| ==>
      r[i].id != r[j].id && r[i].numeroPatrimonio != r[j].numeroPatrimonio
  {
    s.items
  }

  /** Index of the first row whose id is `id` (what `.first()` returns), if any. */
  function FindId(items: seq<Record>, id: int): (r: Option<nat>)
    ensures r.None? <==> !HasId(items, id)
    ensures r.Some? ==>
      && r.value < |items| && items[r.value].id == id
      && forall j :: 0 <= j < r.value ==> items[j].id != id
  {
    if |items| == 0 then None
    else if items[0].id == id then Some(0)
    else
      match FindId(items[1..], id)
      case None => None
      case Some(k) => Some(k + 1)
  }

  /** `deletar_patrimonio`: removes the row with the given id and reports
      success. An id outside 64 bits cannot be bound into the query and
      fails with `OverflowError` (a server error); an id no row has fails
      with 404 "Item não encontrado". */
  function Delete(s: Store, id: int): (r: Result<Deleted, StoreError>)
    ensures r.Failure? <==> !FitsInt64(id) || !HasId(s.items, id)
    ensures !FitsInt64(id) ==> r == Failure(IntegerOverflow(id))
    ensures FitsInt64(id) && !HasId(s.items, id) ==> r == Failure(HttpError(404, NotFoundDetail))
    ensures r.Success? ==>
      && r.value.mensagem == DeletedMessage
      && |r.value.store.items| == |s.items| - 1
      && exists k :: 0 <= k < |s.items| && s.items[k].id == id
           && r.value.store.items == s.items[..k] + s.items[k + 1..]
  {
    if !FitsInt64(id) then Failure(IntegerOverflow(id))
    else match FindId(s.items, id)
    case None => Failure(HttpError(404, NotFoundDetail))
    case Some(k) => Success(Deleted(Store(s.items[..k] + s.items[k + 1..]), DeletedMessage))
  }

  // ---------------------------------------------------------------------
  // What a client observes through the list route.

  /** Index arithmetic of removing position `k`. */
  lemma RemoveAtIndex(items: seq<Record>, k: nat, i: nat)
    requires k < |items| && i < |items| - 1
    ensures (items[..k] + items[k + 1..])[i] == (if i < k then items[i] else items[i + 1])
  {
  }

  lemma RemoveAtKeepsOthers(s: Store, k: nat)
    requires Valid(s)
    requires k < |s.items|
    ensures !HasId(s.items[..k] + s.items[k + 1..], s.items[k].id)
    ensures forall x :: x in s.items[..k] + s.items[k + 1..] <==> x in s.items && x.id != s.items[k].id
  {
    var id := s.items[k].id;
    var t := s.items[..k] + s.items[k + 1..];
    forall i | 0 <= i < |t|
      ensures t[i].id != id
    {
      RemoveAtIndex(s.items, k, i);
    }
    forall x | x in s.items && x.id != id
      ensures x in t
    {
      var j :| 0 <= j < |s.items| && s.items[j] == x;
      if j < k {
        RemoveAtIndex(s.items, k, j);
      } else {
        RemoveAtIndex(s.items, k, j - 1);
      }
    }
  }

  lemma RemoveAtKeepsValid(s: Store, k: nat)
    requires Valid(s)
    requires k < |s.items|
    ensures Valid(Store(s.items[..k] + s.items[k + 1..]))
  {
    var t := s.items[..k] + s.items[k + 1..];
    forall i, j | 0 <= i < j < |t|
      ensures t[i].id != t[j].id && t[i].numeroPatrimonio != t[j].numeroPatrimonio
    {
      RemoveAtIndex(s.items, k, i);
      RemoveAtIndex(s.items, k, j);
    }
    forall i | 0 <= i < |t|
      ensures t[i].id > 0
    {
      RemoveAtIndex(s.items, k, i);
    }
  }

  /** In a valid store, a delete removes exactly the row with that id: the
      id is gone from the listing, every other row stays, and the store
      stays valid. */
  lemma ListAfterDelete(s: Store, id: int)
    requires Valid(s)
    requires Delete(s, id).Success?
    ensures !HasId(List(Delete(s, id).value.store), id)
    ensures forall x :: x in List(Delete(s, id).value.store) <==> x in List(s) && x.id != id
    ensures Valid(Delete(s, id).value.store)
  {
    var k := FindId(s.items, id).value;
    RemoveAtKeepsOthers(s, k);
    RemoveAtKeepsValid(s, k);
  }

  /** Deleting the same id twice: the second delete fails with 404. */
  lemma DeleteTwiceNotFound(s: Store, id: int)
    requires Valid(s)
    requires Delete(s, id).Success?
    ensures Delete(Delete(s, id).value.store, id) == Failure(HttpError(404, NotFoundDetail))
  {
    ListAfterDelete(s, id);
  }

  /** A row created and then deleted by its id leaves the store as it was. */
  lemma CreateThenDelete(s: Store, item: NewItem)
    requires Valid(s)
    requires Create(s, item).Success?
    ensures Delete(Create(s, item).value.store, Create(s, item).value.record.id).Success?
    ensures Delete(Create(s, item).value.store, Create(s, item).value.record.id).value.store == s
  {
    var c := Create(s, item).value;
    var items := c.store.items;
    assert items[|s.items|].id == c.record.id;
    assert HasId(items, c.record.id);
    var k := FindId(items, c.record.id).value;
    assert k == |s.items|;
    assert items[..k] + items[k + 1..] == s.items;
  }
}

=== FILE: inventory_view.dfy ===
/** The list view of `frontend/src/App.jsx`: the search filter over the
    records fetched from the backend, and the append done when the chat
    reports a saved record. */
module InventoryView {
  import opened Wrappers
  import opened Text
  import opened Inventory
  import opened ChatIntake

  /** The search test of one item: its lower-cased name or room contains
      the lower-cased query, or its tag contains the query as typed. */
  predicate Matches(item: Record, busca: string) {
    || Contains(Lower(item.nome), Lower(busca))
    || Contains(item.numeroPatrimonio, busca)
    || Contains(Lower(item.sala), Lower(busca))
  }

  /** `xs` is `ys` with some elements left out, the rest in their order. */
  predicate IsSubsequence(xs: seq<Record>, ys: seq<Record>)
    decreases |ys|
  {
    if |xs| == 0 then true
    else if |ys| == 0 then false
    else if xs[0] == ys[0] then IsSubsequence(xs[1..], ys[1..])
    else IsSubsequence(xs, ys[1..])
  }

  /** `patrimoniosFiltrados`: the items that match the query, in list order. */
  function Filtered(items: seq<Record>, busca: string): (r: seq<Record>)
    ensures |r| <= |items|
    ensures forall x :: x in r <==> x in items && Matches(x, busca)
    ensures IsSubsequence(r, items)
  {
    if |items| == 0 then []
    else if Matches(items[0], busca) then [items[0]] + Filtered(items[1..], busca)
    else Filtered(items[1..], busca)
  }

  /** The item count shown above the list. */
  function DisplayedCount(items: seq<Record>, busca: string): (n: nat)
    ensures n <= |items|
  {
    |Filtered(items, busca)|
  }

  /** How many items match the query, counted one by one. */
  function CountMatching(items: seq<Record>, busca: string): nat {
    if |items| == 0 then 0
    else (if Matches(items[0], busca) then 1 else 0) + CountMatching(items[1..], busca)
  }

  /** The count shown is the number of matching items. */
  lemma {:induction false} DisplayedCountIsMatches(items: seq<Record>, busca: string)
    ensures DisplayedCount(items, busca) == CountMatching(items, busca)
    decreases |items|
  {
    if |items| > 0 {
      DisplayedCountIsMatches(items[1..], busca);
    }
  }

  /** Each item appears in the filtered list exactly as often as in the
      full list when it matches, and not at all otherwise. */
  lemma {:induction false} FilteredCounts(items: seq<Record>, busca: string, x: Record)
    ensures multiset(Filtered(items, busca))[x] == if Matches(x, busca) then multiset(items)[x] else 0
    decreases |items|
  {
    if |items| > 0 {
      FilteredCounts(items[1..], busca, x);
      assert items == [items[0]] + items[1..];
    }
  }

  lemma EmptyOccursEverywhere(s: string)
    ensures Contains(s, "")
  {
    assert OccursAt(s, "", 0);
  }

  /** An empty search box shows every item. */
  lemma {:induction false} EmptyQueryKeepsAll(items: seq<Record>)
    ensures Filtered(items, "") == items
    ensures DisplayedCount(items, "") == |items|
    decreases |items|
  {
    if |items| > 0 {
      EmptyOccursEverywhere(items[0].numeroPatrimonio);
      EmptyQueryKeepsAll(items[1..]);
    }
  }

  /** `handleNovoItemIA`: the saved item goes at the end, the earlier items stay as they were. */
  function AppendItem(items: seq<Record>, saved: Record): (r: seq<Record>)
    ensures |r| == |items| + 1
    ensures r[..|items|] == items
    ensures r[|items|] == saved
  {
    items + [saved]
  }

  /** After the append, the filtered list is the old filtered list, plus
      the new item at the end when it matches the current query. */
  lemma {:induction false} FilterAfterAppend(items: seq<Record>, saved: Record, busca: string)
    ensures Filtered(AppendItem(items, saved), busca)
      == Filtered(items, busca) + (if Matches(saved, busca) then [saved] else [])
    decreases |items|
  {
    var tail := if Matches(saved, busca) then [saved] else [];
    if |items| > 0 {
      var a := AppendItem(items, saved);
      assert a[0] == items[0];
      assert a[1..] == AppendItem(items[1..], saved);
      FilterAfterAppend(items[1..], saved, busca);
      var rest := Filtered(items[1..], busca);
      assert Filtered(a[1..], busca) == rest + tail;
      if Matches(items[0], busca) {
        assert Filtered(a, busca) == [items[0]] + (rest + tail);
        assert Filtered(items, busca) == [items[0]] + rest;
      } else {
        assert Filtered(a, busca) == rest + tail;
        assert Filtered(items, busca) == rest;
      }
    } else {
      assert AppendItem(items, saved) == [saved];
    }
  }

  /** When the view showed the store's listing, the chat widget keeps it
      in step: on a response whose `type` is "success" it appends the
      echoed record, which gives the new listing, and on any other answer
      it appends nothing, and the store did not change. */
  lemma ChatSuccessKeepsViewInStep(
    view: seq<Record>, s: Store, message: string, reply: LlmReply, uuid: string,
    parse: string -> Option<Json>, describe: Fault -> string)
    requires view == List(s)
    ensures var o := ChatWithAI(s, message, reply, uuid, parse, describe);
      o.Answered? && o.response.kind.Name() == "success" ==>
        AppendItem(view, o.response.data.value) == List(o.store)
    ensures var o := ChatWithAI(s, message, reply, uuid, parse, describe);
      o.Answered? && o.response.kind.Name() != "success" ==> view == List(o.store)
  {
  }
}

=== FILE: reports.dfy ===
/** The row structure of the two exports in `backend/main.py`: the
    spreadsheet rows handed to the data-frame writer and the table handed
    to the PDF renderer. Rendering itself is not modelled. */
module Reports {
  import opened Wrappers
  import opened Text
  import opened Inventory

  /** One spreadsheet row: the five exported fields, in the column order
      of `ExcelHeaders` (the record id is not exported). */
  datatype ExcelRow = ExcelRow(
    patrimonio: string,
    nomeDescricao: string,
    sala: string,
    quantidade: int,
    valorReais: real)

  /** The keys of each row dictionary, in insertion order: the sheet's
      column headers. */
  const ExcelHeaders: seq<string> := ["Patrimônio", "Nome/Descrição", "Sala", "Quantidade", "Valor (R$)"]

  /** One spreadsheet cell. */
  datatype Cell = TextCell(text: string) | IntCell(n: int) | RealCell(x: real)

  /** The row dictionary built for `r`: the value stored under each renamed key. */
  function FieldNamed(r: Record, header: string): Option<Cell> {
    if header == "Patrimônio" then Some(TextCell(r.numeroPatrimonio))
    else if header == "Nome/Descrição" then Some(TextCell(r.nome))
    else if header == "Sala" then Some(TextCell(r.sala))
    else if header == "Quantidade" then Some(IntCell(r.quantidade))
    else if header == "Valor (R$)" then Some(RealCell(r.valor))
    else None
  }

  /** The written sheet: a header row of column names and the data rows. */
  datatype Sheet = Sheet(header: seq<string>, body: seq<seq<Cell>>)

  function Cells(row: ExcelRow): seq<Cell> {
    [TextCell(row.patrimonio), TextCell(row.nomeDescricao), TextCell(row.sala),
     IntCell(row.quantidade), RealCell(row.valorReais)]
  }

  /** `pd.DataFrame(dados).to_excel(..., index=False)`: the columns are the
      dictionaries' keys in insertion order, written as the header row,
      and every record gives one row whose cell under each header is the
      value stored under that key. With no records the frame has no
      columns, so the sheet has no header row and no data. */
  function ExcelSheet(items: seq<Record>): (sh: Sheet)
    ensures |items| == 0 ==> sh == Sheet([], [])
    ensures |items| > 0 ==> sh.header == ExcelHeaders
    ensures |sh.body| == |items|
    ensures forall i :: 0 <= i < |items| ==> |sh.body[i]| == |sh.header|
    ensures forall i, k :: 0 <= i < |items| && 0 <= k < |sh.header| ==>
      FieldNamed(items[i], sh.header[k]) == Some(sh.body[i][k])
  {
    if |items| == 0 then Sheet([], [])
    else
      var body := seq(|items|, i requires 0 <= i < |items| => Cells(ExcelRowOf(items[i])));
      Sheet(ExcelHeaders, body)
  }

  /** The PDF table's header row. */
  const PdfHeader: seq<string> := ["Patrimônio", "Nome", "Sala", "Qtd", "Valor"]

  /** How many characters of a name the PDF table shows. */
  const PdfNameWidth: nat := 30

  const CurrencyPrefix: string := "R$ "

  function ExcelRowOf(r: Record): ExcelRow {
    ExcelRow(r.numeroPatrimonio, r.nome, r.sala, r.quantidade, r.valor)
  }

  /** The loop of `exportar_excel`: one row per record, in listing order,
      each carrying that record's five exported fields. */
  method ExcelRows(items: seq<Record>) returns (rows: seq<ExcelRow>)
    ensures |rows| == |items|
    ensures forall i :: 0 <= i < |items| ==>
      && rows[i].patrimonio == items[i].numeroPatrimonio
      && rows[i].nomeDescricao == items[i].nome
      && rows[i].sala == items[i].sala
      && rows[i].quantidade == items[i].quantidade
      && rows[i].valorReais == items[i].valor
  {
    rows := [];
    var k := 0;
    while k < |items|
      invariant 0 <= k <= |items|
      invariant |rows| == k
      invariant forall i :: 0 <= i < k ==> rows[i] == ExcelRowOf(items[i])
    {
      rows := rows + [ExcelRowOf(items[k])];
      k := k + 1;
    }
  }

  /** One PDF data row. `showValor` stands for Python's float-to-text conversion. */
  function PdfRow(r: Record, showValor: real -> string): seq<string> {
    [r.numeroPatrimonio, Take(r.nome, PdfNameWidth), r.sala, IntToString(r.quantidade),
     CurrencyPrefix + showValor(r.valor)]
  }

  /** A PDF data row shows record `r`: its tag, exactly the first 30
      characters of its name (the whole name when it is shorter), its
      room, its quantity as `str` writes it (text that reads back as the
      quantity), and its value's text after the currency prefix. */
  predicate ShowsRecord(row: seq<string>, r: Record, showValor: real -> string) {
    && |row| == 5
    && row[0] == r.numeroPatrimonio
    && |row[1]| == (if |r.nome| <= PdfNameWidth then |r.nome| else PdfNameWidth)
    && row[1] == r.nome[..|row[1]|]
    && row[2] == r.sala
    && row[3] == IntToString(r.quantidade)
    && IsIntText(row[3]) && ParseInt(row[3]) == r.quantidade
    && row[4] == CurrencyPrefix + showValor(r.valor)
  }

  lemma PdfRowShowsRecord(r: Record, showValor: real -> string)
    ensures ShowsRecord(PdfRow(r, showValor), r, showValor)
  {
    IntToStringRoundTrip(r.quantidade);
  }

  /** The table of `exportar_pdf`: the header row first, then one row per
      record in listing order, each showing its record. */
  function PdfTable(items: seq<Record>, showValor: real -> string): (t: seq<seq<string>>)
    ensures |t| == |items| + 1
    ensures t[0] == PdfHeader
    ensures forall i :: 1 <= i < |t| ==> ShowsRecord(t[i], items[i - 1], showValor)
  {
    var rows := seq(|items|, i requires 0 <= i < |items| => PdfRow(items[i], showValor));
    var t := [PdfHeader] + rows;
    forall i | 1 <= i < |t|
      ensures ShowsRecord(t[i], items[i - 1], showValor)
    {
      assert t[i] == PdfRow(items[i - 1], showValor);
      PdfRowShowsRecord(items[i - 1], showValor);
    }
    t
  }

  /** The PDF export follows creation: a new record adds exactly one row, at the end of the table. */
  lemma ExportsAfterCreate(s: Store, item: NewItem, showValor: real -> string)
    requires Create(s, item).Success?
    ensures PdfTable(List(Create(s, item).value.store), showValor)
      == PdfTable(List(s), showValor) + [PdfRow(Create(s, item).value.record, showValor)]
  {
    var rec := Create(s, item).value.record;
    var a := PdfTable(List(s), showValor);
    var b := PdfTable(List(s) + [rec], showValor);
    assert |b| == |a| + 1;
    forall i | 0 <= i < |b|
      ensures b[i] == (a + [PdfRow(rec, showValor)])[i]
    {
    }
  }
}

=== FILE: sala_models.dfy ===
/** The per-room table registry of `backend/models.py`: one table per
    room, named after the room's slug, looked up by the room's exact name.
    The room list itself is a parameter. */
module SalaModels {
  import opened Wrappers
  import opened Text
  import opened Slug

  /** What `_build_model_class` fixes for a room: the table name, the
      class name, and the room name the `sala` column defaults to. The
      column layout is the same for every room and is not repeated here. */
  datatype ModelClass = ModelClass(sala: string, tableName: string, className: string)

  const TablePrefix: string := "patrimonios_"
  const ClassPrefix: string := "Patrimonio"
  const ClassSuffix: string := "DB"
  const UnknownRoomPrefix: string := "Sala desconhecida: "

  /** Python's `str.capitalize` on ASCII text: first character upper-cased, the rest lower-cased. */
  function Capitalize(w: string): (r: string)
    ensures |r| == |w|
  {
    if |w| == 0 then "" else [UpperChar(w[0])] + Lower(w[1..])
  }

  function CapitalizeAll(ws: seq<string>): (r: seq<string>)
    ensures |r| == |ws|
    ensures forall i :: 0 <= i < |ws| ==> r[i] == Capitalize(ws[i])
  {
    seq(|ws|, i requires 0 <= i < |ws| => Capitalize(ws[i]))
  }

  /** `"".join(ws)`. */
  function Concat(ws: seq<string>): string {
    if |ws| == 0 then "" else ws[0] + Concat(ws[1..])
  }

  /** The words of a room name as they appear in its table's class name. */
  function ClassWords(sala: string): seq<string> {
    CapitalizeAll(LowerAll(Words(AsciiFold(sala))))
  }

  /** The names `_build_model_class` gives a room's table and class. The
      table name is the prefix followed by a well-formed slug of the room,
      and the class name is the room's alphanumeric runs, capitalised and
      run together, between `Patrimonio` and `DB`. */
  function BuildModelClass(sala: string): (m: ModelClass)
    ensures m.sala == sala
    ensures |m.tableName| >= |TablePrefix| && m.tableName[..|TablePrefix|] == TablePrefix
    ensures IsSlug(m.tableName[|TablePrefix|..])
    ensures m.tableName[|TablePrefix|..] == Slugify(sala)
    ensures m.className == ClassPrefix + Concat(ClassWords(sala)) + ClassSuffix
  {
    var slug := Slugify(sala);
    SlugShape(sala);
    ClassNameFromWords(sala);
    ModelClass(sala, TablePrefix + slug, ClassPrefix + Concat(CapitalizeAll(Split(slug, '_'))) + ClassSuffix)
  }

  /** Capitalising the `_`-separated parts of the slug is capitalising the room's runs. */
  lemma ClassNameFromWords(sala: string)
    ensures Concat(CapitalizeAll(Split(Slugify(sala), '_'))) == Concat(ClassWords(sala))
  {
    var ws := LowerAll(Words(AsciiFold(sala)));
    SlugIsJoinedWords(sala);
    LowerAllWordsAreSegments(Words(AsciiFold(sala)));
    if |ws| == 0 {
      assert Split(Slugify(sala), '_') == [""];
      assert CapitalizeAll([""]) == [""];
    } else {
      assert forall i :: 0 <= i < |ws| ==> Avoids(ws[i], '_') by {
        forall i | 0 <= i < |ws|
          ensures Avoids(ws[i], '_')
        {
          assert IsSegment(ws[i]);
        }
      }
      SplitJoin(ws, '_');
    }
  }

  lemma {:induction false} ConcatAlnum(ws: seq<string>)
    requires forall i :: 0 <= i < |ws| ==> AllAlnum(ws[i])
    ensures AllAlnum(Concat(ws))
    decreases |ws|
  {
    if |ws| > 0 {
      ConcatAlnum(ws[1..]);
      AlnumConcat(ws[0], Concat(ws[1..]));
    }
  }

  lemma CapitalizeKeepsAlnum(w: string)
    requires AllAlnum(w)
    ensures AllAlnum(Capitalize(w))
  {
    if |w| > 0 {
      var c := Capitalize(w);
      assert c == [UpperChar(w[0])] + Lower(w[1..]);
      forall i | 0 <= i < |c|
        ensures IsAsciiAlnum(c[i])
      {
        if i > 0 {
          assert c[i] == LowerChar(w[i]);
        }
      }
    }
  }

  lemma ClassWordsAlnum(sala: string)
    ensures forall i :: 0 <= i < |ClassWords(sala)| ==> AllAlnum(ClassWords(sala)[i])
  {
    var lw := LowerAll(Words(AsciiFold(sala)));
    var ws := ClassWords(sala);
    LowerAllWordsAreSegments(Words(AsciiFold(sala)));
    forall i | 0 <= i < |ws|
      ensures AllAlnum(ws[i])
    {
      assert IsSegment(lw[i]);
      CapitalizeKeepsAlnum(lw[i]);
    }
  }

  lemma AffixesAlnum()
    ensures AllAlnum(ClassPrefix) && AllAlnum(ClassSuffix)
  {
  }

  /** Every generated class name is an ASCII identifier: letters and digits only. */
  lemma ClassNameIsIdentifier(sala: string)
    ensures AllAlnum(BuildModelClass(sala).className)
  {
    var ws := ClassWords(sala);
    ClassWordsAlnum(sala);
    ConcatAlnum(ws);
    AffixesAlnum();
    AlnumConcat(ClassPrefix, Concat(ws));
    AlnumConcat(ClassPrefix + Concat(ws), ClassSuffix);
  }

  lemma AlnumConcat(a: string, b: string)
    requires AllAlnum(a) && AllAlnum(b)
    ensures AllAlnum(a + b)
  {
  }

  /** Why building the registry fails: a second class declares a table
      name already defined on the shared metadata. */
  datatype RegistryError = TableAlreadyDefined(tableName: string)

  /** The slug of each listed room, in list order. */
  function Slugs(salas: seq<string>): (r: seq<string>)
    ensures |r| == |salas|
    ensures forall i :: 0 <= i < |salas| ==> r[i] == Slugify(salas[i])
  {
    seq(|salas|, i requires 0 <= i < |salas| => Slugify(salas[i]))
  }

  /** The name at position `j` was already taken at an earlier position. */
  predicate Clashes(names: seq<string>, j: int)
    requires 0 <= j < |names|
  {
    exists i :: 0 <= i < j && names[i] == names[j]
  }

  /** No two positions of the room list give the same table name. A room
      listed twice counts as a clash too: its class is declared twice. */
  predicate TablesDistinct(salas: seq<string>) {
    forall i, j :: 0 <= i < j < |salas| ==> Slugify(salas[i]) != Slugify(salas[j])
  }

  /** The first position from `j` on whose name clashes with an earlier one. */
  function FirstClash(names: seq<string>, j: nat): (r: Option<nat>)
    requires j <= |names|
    ensures r.None? ==> forall k :: j <= k < |names| ==> !Clashes(names, k)
    ensures r.Some? ==>
      && j <= r.value < |names| && Clashes(names, r.value)
      && forall k :: j <= k < r.value ==> !Clashes(names, k)
    decreases |names| - j
  {
    if j == |names| then None
    else if Clashes(names, j) then Some(j)
    else FirstClash(names, j + 1)
  }

  lemma NoClashIsDistinct(salas: seq<string>)
    requires forall k :: 0 <= k < |salas| ==> !Clashes(Slugs(salas), k)
    ensures TablesDistinct(salas)
  {
    var names := Slugs(salas);
    forall i, j | 0 <= i < j < |salas|
      ensures Slugify(salas[i]) != Slugify(salas[j])
    {
      assert !Clashes(names, j);
      assert names[i] == Slugify(salas[i]) && names[j] == Slugify(salas[j]);
    }
  }

  /** `SALA_MODELS`: the rooms' classes are declared in list order, and the
      first room whose table name is already taken makes loading fail.
      Otherwise there is one entry per room, keyed by the room's unmodified
      name and holding that room's own table. */
  function BuildSalaModels(salas: seq<string>): (r: Result<map<string, ModelClass>, RegistryError>)
    ensures r.Success? <==> TablesDistinct(salas)
    ensures r.Failure? ==>
      exists j ::
        && 0 <= j < |salas| && Clashes(Slugs(salas), j)
        && r.error == TableAlreadyDefined(TablePrefix + Slugify(salas[j]))
        && forall k :: 0 <= k < j ==> !Clashes(Slugs(salas), k)
    ensures r.Success? ==> forall s :: s in r.value <==> s in salas
    ensures r.Success? ==> forall s :: s in r.value ==>
      r.value[s].sala == s && r.value[s].tableName == TablePrefix + Slugify(s)
  {
    match FirstClash(Slugs(salas), 0)
    case Some(j) => Failure(TableAlreadyDefined(TablePrefix + Slugify(salas[j])))
    case None =>
      NoClashIsDistinct(salas);
      Success(map s | s in salas :: BuildModelClass(s))
  }

  predicate Distinct(xs: seq<string>) {
    forall i, j :: 0 <= i < j < |xs| ==> xs[i] != xs[j]
  }

  lemma {:induction false} DistinctElementCount(xs: seq<string>)
    requires Distinct(xs)
    ensures |set x | x in xs| == |xs|
    decreases |xs|
  {
    if |xs| > 0 {
      DistinctElementCount(xs[1..]);
      assert (set x | x in xs) == {xs[0]} + (set x | x in xs[1..]);
      assert xs[0] !in (set x | x in xs[1..]);
    }
  }

  /** A registry that loads has exactly one entry per listed room, and no
      two of its entries share a table. */
  lemma SalaModelsOnePerRoom(salas: seq<string>)
    requires BuildSalaModels(salas).Success?
    ensures |BuildSalaModels(salas).value| == |salas|
    ensures forall a, b :: a in BuildSalaModels(salas).value && b in BuildSalaModels(salas).value && a != b ==>
      BuildSalaModels(salas).value[a].tableName != BuildSalaModels(salas).value[b].tableName
  {
    var m := BuildSalaModels(salas).value;
    assert m.Keys == set x | x in salas;
    assert Distinct(salas) by {
      forall i, j | 0 <= i < j < |salas|
        ensures salas[i] != salas[j]
      {
        assert Slugify(salas[i]) != Slugify(salas[j]);
      }
    }
    DistinctElementCount(salas);
    forall a, b | a in m && b in m && a != b
      ensures m[a].tableName != m[b].tableName
    {
      var i :| 0 <= i < |salas| && salas[i] == a;
      var j :| 0 <= j < |salas| && salas[j] == b;
      assert i != j;
      if i < j {
        assert Slugify(salas[i]) != Slugify(salas[j]);
      } else {
        assert Slugify(salas[j]) != Slugify(salas[i]);
      }
      assert m[a].tableName[|TablePrefix|..] == Slugify(a);
      assert m[b].tableName[|TablePrefix|..] == Slugify(b);
    }
  }

  /** `get_model_for_sala`: the registered model, or `ValueError` naming the room. */
  function GetModelForSala(models: map<string, ModelClass>, sala: string): (r: Result<ModelClass, string>)
    ensures r.Success? <==> sala in models
    ensures r.Success? ==> r.value == models[sala]
    ensures r.Failure? ==> r.error == UnknownRoomPrefix + sala
  {
    if sala !in models then Failure(UnknownRoomPrefix + sala) else Success(models[sala])
  }

  /** Looking a room up in a registry that loaded succeeds exactly for the
      listed rooms, compared by exact name, and yields that room's own table. */
  lemma LookupRegistered(salas: seq<string>, sala: string)
    requires BuildSalaModels(salas).Success?
    ensures GetModelForSala(BuildSalaModels(salas).value, sala).Success? <==> sala in salas
    ensures sala in salas ==>
      GetModelForSala(BuildSalaModels(salas).value, sala).value == BuildModelClass(sala)
  {
  }

  lemma FoldsToQuimica()
    ensures AsciiFold("Química") == "Quimica"
  {
    var q := "Química";
    assert q[3..] == "mica";
    assert AsciiFold(q[3..]) == "mica";
    assert FoldChar(q[2]) == "i";
    assert AsciiFold(q[2..]) == FoldChar(q[2]) + AsciiFold(q[3..]);
    assert AsciiFold(q[1..]) == FoldChar(q[1]) + AsciiFold(q[2..]);
  }

  /** A room spelled with and without its accent gets one table name, so
      a list holding both does not load. */
  lemma AccentTwinsDoNotLoad()
    ensures BuildSalaModels(["Química", "Quimica"]) == Failure(TableAlreadyDefined(TablePrefix + Slugify("Quimica")))
  {
    FoldsToQuimica();
    assert AsciiFold("Quimica") == "Quimica";
    var salas := ["Química", "Quimica"];
    var names := Slugs(salas);
    assert names[0] == names[1];
    assert Clashes(names, 1);
    assert !Clashes(names, 0);
    assert FirstClash(names, 0) == Some(1);
  }
}

=== FILE: slug.dfy ===
/** The room-name slug of `backend/models.py`: the ASCII identifier that
    names each room's table. */
module Slug {
  import opened Text

  /** What NFKD decomposition followed by an ASCII encoding that ignores
      errors leaves of one character, for the characters up to U+00FF:
      ASCII stays, a Latin-1 letter keeps its base letter, compatibility
      characters keep their ASCII expansion, and the rest is dropped. */
  function FoldChar(c: char): (r: string)
    ensures |r| <= 2 && AllAscii(r)
    ensures IsAscii(c) ==> r == [c]
  {
    var n := c as int;
    if n < 0x80 then [c]
    else if n == 0xA0 || n == 0xA8 || n == 0xAF || n == 0xB4 || n == 0xB8 then " "
    else if n == 0xAA then "a"
    else if n == 0xBA then "o"
    else if n == 0xB9 then "1"
    else if n == 0xB2 then "2"
    else if n == 0xB3 then "3"
    else if n == 0xBC then "14"
    else if n == 0xBD then "12"
    else if n == 0xBE then "34"
    else if 0xC0 <= n <= 0xC5 then "A"
    else if n == 0xC7 then "C"
    else if 0xC8 <= n <= 0xCB then "E"
    else if 0xCC <= n <= 0xCF then "I"
    else if n == 0xD1 then "N"
    else if 0xD2 <= n <= 0xD6 then "O"
    else if 0xD9 <= n <= 0xDC then "U"
    else if n == 0xDD then "Y"
    else if 0xE0 <= n <= 0xE5 then "a"
    else if n == 0xE7 then "c"
    else if 0xE8 <= n <= 0xEB then "e"
    else if 0xEC <= n <= 0xEF then "i"
    else if n == 0xF1 then "n"
    else if 0xF2 <= n <= 0xF6 then "o"
    else if 0xF9 <= n <= 0xFC then "u"
    else if n == 0xFD || n == 0xFF then "y"
    else ""
  }

  /** `unicodedata.normalize("NFKD", s).encode("ascii", "ignore").decode("ascii")`:
      the result is pure ASCII, and ASCII text passes through unchanged. */
  function AsciiFold(s: string): (r: string)
    ensures AllAscii(r)
    ensures AllAscii(s) ==> r == s
  {
    if |s| == 0 then "" else FoldChar(s[0]) + AsciiFold(s[1..])
  }

  /** `ch if ch.isalnum() else "_"` for every character of ASCII text. */
  function CleanChar(c: char): char {
    if IsAsciiAlnum(c) then c else '_'
  }

  function Clean(s: string): (r: string)
    ensures |r| == |s|
    ensures forall i :: 0 <= i < |s| ==> r[i] == CleanChar(s[i])
  {
    seq(|s|, i requires 0 <= i < |s| => CleanChar(s[i]))
  }

  /** Python's `s.split(sep)` for a one-character separator: there is
      always at least one part, and no part contains the separator. */
  function Split(s: string, sep: char): (parts: seq<string>)
    ensures |parts| > 0
    ensures forall i, j :: 0 <= i < |parts| && 0 <= j < |parts[i]| ==> parts[i][j] != sep
  {
    if |s| == 0 then [""]
    else
      var rest := Split(s[1..], sep);
      if s[0] == sep then [""] + rest else [[s[0]] + rest[0]] + rest[1..]
  }

  /** Python's `sep.join(parts)` for a one-character separator. */
  function Join(parts: seq<string>, sep: char): string {
    if |parts| == 0 then ""
    else if |parts| == 1 then parts[0]
    else parts[0] + [sep] + Join(parts[1..], sep)
  }

  /** `[part for part in parts if part]`. */
  function NonEmpty(parts: seq<string>): (r: seq<string>)
    ensures |r| <= |parts|
    ensures forall i :: 0 <= i < |r| ==> |r[i]| > 0
  {
    if |parts| == 0 then []
    else (if |parts[0]| > 0 then [parts[0]] else []) + NonEmpty(parts[1..])
  }

  /** `_slugify_sala`: fold to ASCII, turn every non-alphanumeric character
      into `_`, drop the empty `_`-separated parts, and lower-case. */
  function Slugify(name: string): string {
    Lower(Join(NonEmpty(Split(Clean(AsciiFold(name)), '_')), '_'))
  }

  // ---------------------------------------------------------------------
  // An independent reading of the slug: the maximal alphanumeric runs.

  predicate AllAlnum(w: string) {
    forall i :: 0 <= i < |w| ==> IsAsciiAlnum(w[i])
  }

  /** The maximal runs of ASCII alphanumeric characters of `s`, in order,
      scanning left to right with `cur` as the run read so far. */
  function WordsFrom(s: string, cur: string): (ws: seq<string>)
    requires AllAlnum(cur)
    ensures forall i :: 0 <= i < |ws| ==> |ws[i]| > 0 && AllAlnum(ws[i])
    decreases |s|
  {
    if |s| == 0 then (if |cur| == 0 then [] else [cur])
    else if IsAsciiAlnum(s[0]) then WordsFrom(s[1..], cur + [s[0]])
    else (if |cur| == 0 then [] else [cur]) + WordsFrom(s[1..], "")
  }

  function Words(s: string): seq<string> {
    WordsFrom(s, "")
  }

  function LowerAll(ws: seq<string>): (r: seq<string>)
    ensures |r| == |ws|
    ensures forall i :: 0 <= i < |ws| ==> r[i] == Lower(ws[i])
  {
    seq(|ws|, i requires 0 <= i < |ws| => Lower(ws[i]))
  }

  // ---------------------------------------------------------------------
  // The shape of a slug.

  predicate IsSlugChar(c: char) {
    ('a' <= c <= 'z') || ('0' <= c <= '9') || c == '_'
  }

  /** `sep` neither starts nor ends `t`, and never appears twice in a row. */
  predicate SeparatorsInside(t: string, sep: char) {
    && (|t| > 0 ==> t[0] != sep && t[|t| - 1] != sep)
    && (forall i :: 0 <= i < |t| - 1 ==> !(t[i] == sep && t[i + 1] == sep))
  }

  /** A well-formed slug: lower-case letters, digits and single inner underscores. */
  predicate IsSlug(t: string) {
    && (forall i :: 0 <= i < |t| ==> IsSlugChar(t[i]))
    && SeparatorsInside(t, '_')
  }

  /** A segment of a slug: a non-empty run of lower-case letters and digits. */
  predicate IsSegment(w: string) {
    && |w| > 0
    && (forall i :: 0 <= i < |w| ==> ('a' <= w[i] <= 'z') || ('0' <= w[i] <= '9'))
  }

  // ---------------------------------------------------------------------
  // Lemmas.

  function PrependHead(cur: string, parts: seq<string>): seq<string>
    requires |parts| > 0
  {
    [cur + parts[0]] + parts[1..]
  }

  lemma PrependNothing(parts: seq<string>)
    requires |parts| > 0
    ensures PrependHead("", parts) == parts
  {
    assert "" + parts[0] == parts[0];
  }

  lemma {:induction false} CollapseIsWordsFrom(s: string, cur: string)
    requires AllAlnum(cur)
    ensures NonEmpty(PrependHead(cur, Split(Clean(s), '_'))) == WordsFrom(s, cur)
    decreases |s|
  {
    var x := Clean(s);
    if |s| == 0 {
      assert Split(x, '_') == [""];
      assert cur + "" == cur;
      assert PrependHead(cur, [""]) == [cur];
      assert NonEmpty([cur]) == (if |cur| > 0 then [cur] else []) + NonEmpty([]);
    } else {
      var y := Clean(s[1..]);
      assert x[1..] == y;
      var p := Split(y, '_');
      if IsAsciiAlnum(s[0]) {
        var sp := Split(x, '_');
        assert sp == [[s[0]] + p[0]] + p[1..];
        assert sp[0] == [s[0]] + p[0] && sp[1..] == p[1..];
        assert cur + ([s[0]] + p[0]) == (cur + [s[0]]) + p[0];
        assert PrependHead(cur, sp) == PrependHead(cur + [s[0]], p);
        CollapseIsWordsFrom(s[1..], cur + [s[0]]);
      } else {
        assert Split(x, '_') == [""] + p;
        var q := PrependHead(cur, Split(x, '_'));
        assert cur + "" == cur;
        assert q == [cur] + p;
        assert q[1..] == p;
        assert NonEmpty(q) == (if |cur| > 0 then [cur] else []) + NonEmpty(p);
        PrependNothing(p);
        CollapseIsWordsFrom(s[1..], "");
      }
    }
  }

  /** Splitting the cleaned text on `_` and dropping the empty parts yields
      exactly the maximal alphanumeric runs of the text. */
  lemma CollapseIsWords(s: string)
    ensures NonEmpty(Split(Clean(s), '_')) == Words(s)
  {
    var p := Split(Clean(s), '_');
    PrependNothing(p);
    CollapseIsWordsFrom(s, "");
  }

  lemma {:induction false} LowerJoin(parts: seq<string>, sep: char)
    requires LowerChar(sep) == sep
    ensures Lower(Join(parts, sep)) == Join(LowerAll(parts), sep)
    decreases |parts|
  {
    if |parts| > 1 {
      LowerJoin(parts[1..], sep);
      assert LowerAll(parts)[1..] == LowerAll(parts[1..]);
      LowerConcat(parts[0] + [sep], Join(parts[1..], sep));
      LowerConcat(parts[0], [sep]);
    }
  }

  /** For every room name, the slug is its maximal alphanumeric runs
      (after folding to ASCII), lower-cased, in order, joined by single
      underscores. */
  lemma SlugIsJoinedWords(name: string)
    ensures Slugify(name) == Join(LowerAll(Words(AsciiFold(name))), '_')
  {
    CollapseIsWords(AsciiFold(name));
    LowerJoin(Words(AsciiFold(name)), '_');
  }

  /** The ASCII case of `SlugIsJoinedWords`: no folding happens. */
  lemma SlugSegmentsAscii(name: string)
    requires AllAscii(name)
    ensures Slugify(name) == Join(LowerAll(Words(name)), '_')
  {
    SlugIsJoinedWords(name);
  }

  lemma LowerAllWordsAreSegments(ws: seq<string>)
    requires forall i :: 0 <= i < |ws| ==> |ws[i]| > 0 && AllAlnum(ws[i])
    ensures forall i :: 0 <= i < |LowerAll(ws)| ==> IsSegment(LowerAll(ws)[i])
  {
  }

  /** Segments joined by `_` form a well-formed slug, empty exactly when there are no segments. */
  lemma {:induction false} JoinSegmentsIsSlug(ws: seq<string>)
    requires forall i :: 0 <= i < |ws| ==> IsSegment(ws[i])
    ensures IsSlug(Join(ws, '_'))
    ensures |Join(ws, '_')| == 0 <==> |ws| == 0
    decreases |ws|
  {
    if |ws| > 1 {
      JoinSegmentsIsSlug(ws[1..]);
      var w := ws[0];
      var j := Join(ws[1..], '_');
      var t := Join(ws, '_');
      assert t == w + ['_'] + j;
      assert forall i :: 0 <= i < |t| ==> IsSlugChar(t[i]) by {
        forall i | 0 <= i < |t|
          ensures IsSlugChar(t[i])
        {
          if i > |w| {
            assert t[i] == j[i - |w| - 1];
          }
        }
      }
      forall i | 0 <= i < |t| - 1
        ensures !(t[i] == '_' && t[i + 1] == '_')
      {
        if i > |w| {
          assert t[i] == j[i - |w| - 1] && t[i + 1] == j[i - |w|];
        }
      }
    }
  }

  /** Every slug is well formed: only `[a-z0-9_]`, never a leading,
      trailing or doubled underscore. */
  lemma SlugShape(name: string)
    ensures IsSlug(Slugify(name))
  {
    SlugIsJoinedWords(name);
    LowerAllWordsAreSegments(Words(AsciiFold(name)));
    JoinSegmentsIsSlug(LowerAll(Words(AsciiFold(name))));
  }

  lemma {:induction false} WordsFromAlnumPrefix(w: string, rest: string, cur: string)
    requires AllAlnum(w) && AllAlnum(cur)
    ensures WordsFrom(w + rest, cur) == WordsFrom(rest, cur + w)
    decreases |w|
  {
    if |w| > 0 {
      assert (w + rest)[1..] == w[1..] + rest;
      WordsFromAlnumPrefix(w[1..], rest, cur + [w[0]]);
      assert cur + [w[0]] + w[1..] == cur + w;
    } else {
      assert w + rest == rest;
      assert cur + w == cur;
    }
  }

  /** Reading the runs back out of segments joined by `_` gives the segments. */
  lemma {:induction false} WordsOfJoin(ws: seq<string>)
    requires forall i :: 0 <= i < |ws| ==> |ws[i]| > 0 && AllAlnum(ws[i])
    ensures Words(Join(ws, '_')) == ws
    decreases |ws|
  {
    if |ws| == 1 {
      WordsFromAlnumPrefix(ws[0], "", "");
      assert ws[0] + "" == ws[0];
      assert "" + ws[0] == ws[0];
    } else if |ws| > 1 {
      var j := Join(ws[1..], '_');
      assert Join(ws, '_') == ws[0] + (['_'] + j);
      WordsFromAlnumPrefix(ws[0], ['_'] + j, "");
      assert "" + ws[0] == ws[0];
      assert (['_'] + j)[1..] == j;
      WordsOfJoin(ws[1..]);
    }
  }

  lemma SegmentsAreAlnum(ws: seq<string>)
    requires forall i :: 0 <= i < |ws| ==> IsSegment(ws[i])
    ensures forall i :: 0 <= i < |ws| ==> |ws[i]| > 0 && AllAlnum(ws[i])
    ensures LowerAll(ws) == ws
  {
    forall i | 0 <= i < |ws|
      ensures Lower(ws[i]) == ws[i]
    {
      assert forall k :: 0 <= k < |ws[i]| ==> Lower(ws[i])[k] == ws[i][k];
    }
  }

  lemma SlugIsAscii(t: string)
    requires IsSlug(t)
    ensures AllAscii(t)
  {
  }

  /** Slugifying a slug changes nothing. */
  lemma SlugIdempotent(name: string)
    ensures Slugify(Slugify(name)) == Slugify(name)
  {
    var ws := LowerAll(Words(AsciiFold(name)));
    var t := Slugify(name);
    SlugIsJoinedWords(name);
    LowerAllWordsAreSegments(Words(AsciiFold(name)));
    SegmentsAreAlnum(ws);
    SlugShape(name);
    SlugIsAscii(t);
    SlugIsJoinedWords(t);
    WordsOfJoin(ws);
  }

  lemma {:induction false} JoinSplit(s: string, sep: char)
    ensures Join(Split(s, sep), sep) == s
    decreases |s|
  {
    if |s| > 0 {
      var p := Split(s[1..], sep);
      JoinSplit(s[1..], sep);
      if s[0] == sep {
        assert Split(s, sep) == [""] + p;
        assert ([""] + p)[1..] == p;
        assert s == [sep] + s[1..];
      } else if |p| == 1 {
        assert Split(s, sep) == [[s[0]] + p[0]];
        assert s == [s[0]] + s[1..];
      } else {
        var q := Split(s, sep);
        assert q == [[s[0]] + p[0]] + p[1..];
        assert q[1..] == p[1..];
        assert Join(q, sep) == [s[0]] + (p[0] + [sep] + Join(p[1..], sep));
        assert s == [s[0]] + s[1..];
      }
    }
  }

  /** Splitting text whose separators all sit between non-separator characters yields no empty part. */
  lemma {:induction false} SplitPartsNonEmpty(t: string, sep: char)
    requires |t| > 0 && SeparatorsInside(t, sep)
    ensures forall i :: 0 <= i < |Split(t, sep)| ==> |Split(t, sep)[i]| > 0
    decreases |t|
  {
    var r := t[1..];
    if |r| > 0 {
      if r[0] == sep {
        var r2 := r[1..];
        assert |r2| > 0 && r2[0] != sep by {
          assert t[|t| - 1] != sep;
          assert !(t[1] == sep && t[2] == sep);
        }
        assert SeparatorsInside(r2, sep) by {
          forall i | 0 <= i < |r2| - 1
            ensures !(r2[i] == sep && r2[i + 1] == sep)
          {
            assert r2[i] == t[i + 2] && r2[i + 1] == t[i + 3];
          }
        }
        SplitPartsNonEmpty(r2, sep);
        assert Split(r, sep) == [""] + Split(r2, sep);
      } else {
        assert SeparatorsInside(r, sep) by {
          forall i | 0 <= i < |r| - 1
            ensures !(r[i] == sep && r[i + 1] == sep)
          {
            assert r[i] == t[i + 1] && r[i + 1] == t[i + 2];
          }
        }
        SplitPartsNonEmpty(r, sep);
      }
    }
  }

  lemma {:induction false} NonEmptyKeepsNonEmptyParts(parts: seq<string>)
    requires forall i :: 0 <= i < |parts| ==> |parts[i]| > 0
    ensures NonEmpty(parts) == parts
    decreases |parts|
  {
    if |parts| > 0 {
      NonEmptyKeepsNonEmptyParts(parts[1..]);
    }
  }

  /** A well-formed slug is its own slug. */
  lemma SlugFixesSlugs(t: string)
    requires IsSlug(t)
    ensures Slugify(t) == t
  {
    SlugIsAscii(t);
    assert Clean(t) == t;
    if |t| > 0 {
      SplitPartsNonEmpty(t, '_');
      NonEmptyKeepsNonEmptyParts(Split(t, '_'));
    }
    JoinSplit(t, '_');
    assert Lower(t) == t;
  }

  /** The slugs are exactly the fixed points of `Slugify`. */
  lemma SlugFixedPoints(t: string)
    ensures Slugify(t) == t <==> IsSlug(t)
  {
    if IsSlug(t) {
      SlugFixesSlugs(t);
    } else {
      SlugShape(t);
    }
  }

  predicate Avoids(w: string, sep: char) {
    forall i :: 0 <= i < |w| ==> w[i] != sep
  }

  lemma {:induction false} SplitAfterPlainPrefix(w: string, rest: string, sep: char)
    requires Avoids(w, sep)
    ensures Split(w + rest, sep) == PrependHead(w, Split(rest, sep))
    decreases |w|
  {
    if |w| == 0 {
      assert w + rest == rest;
      PrependNothing(Split(rest, sep));
    } else {
      assert (w + rest)[1..] == w[1..] + rest;
      SplitAfterPlainPrefix(w[1..], rest, sep);
      var p := Split(rest, sep);
      assert [w[0]] + (w[1..] + p[0]) == w + p[0];
    }
  }

  /** Splitting parts joined by a separator they avoid gives the parts back. */
  lemma {:induction false} SplitJoin(ws: seq<string>, sep: char)
    requires |ws| > 0
    requires forall i :: 0 <= i < |ws| ==> Avoids(ws[i], sep)
    ensures Split(Join(ws, sep), sep) == ws
    decreases |ws|
  {
    if |ws| == 1 {
      SplitAfterPlainPrefix(ws[0], "", sep);
      assert ws[0] + "" == ws[0];
    } else {
      var j := Join(ws[1..], sep);
      assert Join(ws, sep) == ws[0] + ([sep] + j);
      SplitAfterPlainPrefix(ws[0], [sep] + j, sep);
      assert ([sep] + j)[1..] == j;
      SplitJoin(ws[1..], sep);
      assert Split([sep] + j, sep) == [""] + ws[1..];
      assert ws[0] + "" == ws[0];
    }
  }
}

=== FILE: text.dfy ===
/** Character classes and string operations of the Python and JavaScript
    standard libraries that the inventory code relies on, restricted to the
    characters this model covers. Strings are sequences of Unicode code
    points, as in Python; JavaScript's UTF-16 `includes` agrees on
    well-formed text. */
module Text {

  /** `c.isalnum()` for an ASCII character. */
  predicate IsAsciiAlnum(c: char) {
    ('a' <= c <= 'z') || ('A' <= c <= 'Z') || ('0' <= c <= '9')
  }

  predicate IsAscii(c: char) {
    c as int < 0x80
  }

  predicate AllAscii(s: string) {
    forall i :: 0 <= i < |s| ==> IsAscii(s[i])
  }

  /** `c.isspace()` in Python: the characters of Unicode category Zs
      together with those of bidirectional class B, S or WS. */
  predicate IsSpace(c: char) {
    var n := c as int;
    (9 <= n <= 13) || (28 <= n <= 32) || n == 0x85 || n == 0xA0 || n == 0x1680
    || (0x2000 <= n <= 0x200A) || n == 0x2028 || n == 0x2029 || n == 0x202F
    || n == 0x205F || n == 0x3000
  }

  /** Lower-case mapping of one character: ASCII and the Latin-1 capitals
      (U+00C0..U+00DE without the multiplication sign), which is where
      Python's `str.lower` and JavaScript's `toLowerCase` agree with a
      one-to-one mapping. */
  function LowerChar(c: char): (d: char)
    ensures IsAscii(c) <==> IsAscii(d)
    ensures IsAsciiAlnum(c) <==> IsAsciiAlnum(d)
    ensures d == '_' <==> c == '_'
    ensures !('A' <= d <= 'Z')
  {
    var n := c as int;
    if 'A' <= c <= 'Z' || (0xC0 <= n <= 0xDE && n != 0xD7) then (n + 32) as char else c
  }

  /** Upper-case mapping of one character, the mirror image of `LowerChar`. */
  function UpperChar(c: char): (d: char)
    ensures IsAscii(c) <==> IsAscii(d)
    ensures IsAsciiAlnum(c) <==> IsAsciiAlnum(d)
    ensures !('a' <= d <= 'z')
  {
    var n := c as int;
    if 'a' <= c <= 'z' || (0xE0 <= n <= 0xFE && n != 0xF7) then (n - 32) as char else c
  }

  function Lower(s: string): (r: string)
    ensures |r| == |s|
    ensures forall i :: 0 <= i < |s| ==> r[i] == LowerChar(s[i])
  {
    seq(|s|, i requires 0 <= i < |s| => LowerChar(s[i]))
  }

  function Upper(s: string): (r: string)
    ensures |r| == |s|
    ensures forall i :: 0 <= i < |s| ==> r[i] == UpperChar(s[i])
  {
    seq(|s|, i requires 0 <= i < |s| => UpperChar(s[i]))
  }

  lemma LowerConcat(a: string, b: string)
    ensures Lower(a + b) == Lower(a) + Lower(b)
  {
  }

  /** Lower-casing twice is lower-casing once. */
  lemma LowerIdempotent(s: string)
    ensures Lower(Lower(s)) == Lower(s)
  {
  }

  /** `k in s` for Python strings and `s.includes(k)` in JavaScript:
      `k` occurs in `s` as a contiguous block. The empty string occurs
      in every string. */
  predicate Contains(s: string, k: string) {
    exists i :: 0 <= i <= |s| - |k| && OccursAt(s, k, i)
  }

  /** `k` occurs in `s` starting at index `i`. */
  predicate OccursAt(s: string, k: string, i: int) {
    0 <= i <= |s| - |k| && s[i..i + |k|] == k
  }

  /** The substring test as a left-to-right scan. */
  method FindSubstring(s: string, k: string) returns (found: bool)
    ensures found <==> Contains(s, k)
  {
    if |k| > |s| {
      return false;
    }
    var i := 0;
    while i <= |s| - |k|
      invariant 0 <= i <= |s| - |k| + 1
      invariant forall j :: 0 <= j < i ==> !OccursAt(s, k, j)
    {
      if s[i..i + |k|] == k {
        assert OccursAt(s, k, i);
        return true;
      }
      i := i + 1;
    }
    return false;
  }

  /** An occurrence inside `s` is still an occurrence once text is added on either side. */
  lemma ContainsExtend(s: string, k: string, before: string, after: string)
    requires Contains(s, k)
    ensures Contains(before + s + after, k)
  {
    var i :| 0 <= i <= |s| - |k| && OccursAt(s, k, i);
    var t := before + s + after;
    assert t[|before| + i..|before| + i + |k|] == s[i..i + |k|];
    assert OccursAt(t, k, |before| + i);
  }

  /** Python's `s.lstrip()`: drops the leading whitespace. */
  function StripStart(s: string): (r: string)
    ensures |r| <= |s| && r == s[|s| - |r|..]
    ensures forall k :: 0 <= k < |s| - |r| ==> IsSpace(s[k])
    ensures |r| > 0 ==> !IsSpace(r[0])
  {
    if |s| > 0 && IsSpace(s[0]) then StripStart(s[1..]) else s
  }

  /** Python's `s.rstrip()`: drops the trailing whitespace. */
  function StripEnd(s: string): (r: string)
    ensures |r| <= |s| && r == s[..|r|]
    ensures forall k :: |r| <= k < |s| ==> IsSpace(s[k])
    ensures |r| > 0 ==> !IsSpace(r[|r| - 1])
  {
    if |s| > 0 && IsSpace(s[|s| - 1]) then StripEnd(s[..|s| - 1]) else s
  }

  /** `r` is the block of `s` starting at `i`, and everything of `s` outside it is whitespace. */
  predicate StripsAt(s: string, r: string, i: int) {
    && 0 <= i <= |s| - |r|
    && r == s[i..i + |r|]
    && (forall k :: 0 <= k < i ==> IsSpace(s[k]))
    && (forall k :: i + |r| <= k < |s| ==> IsSpace(s[k]))
  }

  /** Python's `s.strip()`: the block of `s` left after removing the
      whitespace at both ends; what is removed is whitespace only and
      what is left neither starts nor ends with whitespace. */
  function Strip(s: string): (r: string)
    ensures exists i :: StripsAt(s, r, i)
    ensures |r| > 0 ==> !IsSpace(r[0]) && !IsSpace(r[|r| - 1])
  {
    StripIsBlock(s);
    StripEnd(StripStart(s))
  }

  /** Stripping the end after the start leaves a block of `s` at the
      position the leading whitespace ends, with no whitespace at its ends. */
  lemma StripIsBlock(s: string)
    ensures StripsAt(s, StripEnd(StripStart(s)), |s| - |StripStart(s)|)
    ensures var r := StripEnd(StripStart(s)); |r| > 0 ==> !IsSpace(r[0]) && !IsSpace(r[|r| - 1])
  {
    var a := StripStart(s);
    var r := StripEnd(a);
    var i := |s| - |a|;
    StripBlockSlice(s);
    StripBlockTrailing(s);
    assert forall k :: 0 <= k < i ==> IsSpace(s[k]);
    if |r| > 0 {
      assert r[0] == a[0];
    }
  }

  lemma StripBlockSlice(s: string)
    ensures var a := StripStart(s); var r := StripEnd(a);
      r == s[|s| - |a|..|s| - |a| + |r|]
  {
    var a := StripStart(s);
    var r := StripEnd(a);
    var i := |s| - |a|;
    assert a == s[i..];
    assert r == a[..|r|];
  }

  lemma StripBlockTrailing(s: string)
    ensures var a := StripStart(s); var r := StripEnd(a);
      forall k :: |s| - |a| + |r| <= k < |s| ==> IsSpace(s[k])
  {
    var a := StripStart(s);
    var r := StripEnd(a);
    var i := |s| - |a|;
    assert a == s[i..];
    forall k | i + |r| <= k < |s|
      ensures IsSpace(s[k])
    {
      assert s[k] == a[k - i];
    }
  }

  /** Python's `s.replace(pat, rep)`: occurrences of `pat` are found from
      left to right without overlapping, and each is replaced by `rep`. */
  function Replace(s: string, pat: string, rep: string): (r: string)
    requires |pat| > 0
    decreases |s|
  {
    if |s| < |pat| then s
    else if s[..|pat|] == pat then rep + Replace(s[|pat|..], pat, rep)
    else [s[0]] + Replace(s[1..], pat, rep)
  }

  /** Python's `s[:n]` for `n >= 0`. */
  function Take(s: string, n: nat): (r: string)
    ensures |r| <= n && |r| <= |s|
    ensures r == s[..|r|]
    ensures |s| <= n ==> r == s
    ensures |s| > n ==> |r| == n
  {
    if |s| <= n then s else s[..n]
  }

  function DigitChar(d: nat): (c: char)
    requires d < 10
  {
    "0123456789"[d]
  }

  function DigitValue(c: char): (d: nat)
    requires '0' <= c <= '9'
    ensures d < 10 && DigitChar(d) == c
  {
    (c as int) - ('0' as int)
  }

  /** Decimal digits of a natural number, most significant first, without leading zeros. */
  function Digits(n: nat): (r: string)
    ensures |r| > 0
    ensures forall i :: 0 <= i < |r| ==> '0' <= r[i] <= '9'
    ensures |r| > 1 ==> r[0] != '0'
    decreases n
  {
    if n < 10 then [DigitChar(n)] else Digits(n / 10) + [DigitChar(n % 10)]
  }

  /** Python's `str(n)` for an `int`. */
  function IntToString(n: int): (r: string)
    ensures |r| > 0
  {
    if n < 0 then "-" + Digits(-n) else Digits(n)
  }

  /** The value of a string of decimal digits. */
  function ParseDigits(s: string): (n: nat)
    requires AllDigits(s)
  {
    if |s| == 0 then 0 else 10 * ParseDigits(s[..|s| - 1]) + DigitValue(s[|s| - 1])
  }

  /** The text `str` produces for an `int`: an optional minus sign followed by digits. */
  predicate IsIntText(s: string) {
    && |s| > 0
    && (s[0] == '-' ==> |s| > 1 && AllDigits(s[1..]))
    && (s[0] != '-' ==> AllDigits(s))
  }

  predicate AllDigits(s: string) {
    forall i :: 0 <= i < |s| ==> '0' <= s[i] <= '9'
  }

  /** Python's `int(s)` on the text `str` produces. */
  function ParseInt(s: string): (n: int)
    requires IsIntText(s)
  {
    if s[0] == '-' then 0 - ParseDigits(s[1..]) else ParseDigits(s)
  }

  lemma {:induction false} DigitsRoundTrip(n: nat)
    ensures ParseDigits(Digits(n)) == n
    decreases n
  {
    if n >= 10 {
      DigitsRoundTrip(n / 10);
      var d := Digits(n);
      assert d[..|d| - 1] == Digits(n / 10);
      assert DigitValue(d[|d| - 1]) == n % 10;
    }
  }

  /** `int(str(n)) == n`: the decimal rendering loses nothing. */
  lemma IntToStringRoundTrip(n: int)
    ensures IsIntText(IntToString(n))
    ensures ParseInt(IntToString(n)) == n
  {
    if n < 0 {
      NegativeRoundTrip(n);
    } else {
      DigitsRoundTrip(n);
    }
  }

  lemma NegativeRoundTrip(n: int)
    requires n < 0
    ensures IsIntText(IntToString(n))
    ensures ParseInt(IntToString(n)) == n
  {
    var m: nat := -n;
    var d := Digits(m);
    SignedText(d);
    DigitsRoundTrip(m);
    assert IntToString(n) == "-" + d;
  }

  /** A minus sign before digits reads as the negated digits. */
  lemma SignedText(d: string)
    requires |d| > 0 && AllDigits(d)
    ensures IsIntText("-" + d)
    ensures ParseInt("-" + d) == 0 - ParseDigits(d)
  {
    var t := "-" + d;
    assert t[0] == '-';
    assert t[1..] == d;
  }
}

=== FILE: wrappers.dfy ===
/** Failure-carrying result types shared by the whole model. */
module Wrappers {

  /** A value that may be absent: Python's `None` or a missing dictionary key. */
  datatype Option<+T> = None | Some(value: T)

  /** The outcome of an operation that either succeeds with a value or raises an error. */
  datatype Result<+R, +E> = Success(value: R) | Failure(error: E)
}
